=== FILE: README.md ===
# Users repository: query semantics of the relational and document backends

This project models the core of a small Go users repository. One interface, `UsersRepo`, has two
implementations: a relational one built on an ORM and a document-store one.
The model covers:

- the data model: `User`, `Filters`, the sort keys and the errors;
- the functional session options and how `ConfigureDB` folds them into a query handle;
- how each backend's `GetAll` resolves a partly filled `Filters` value into a query and what
  that query returns: the filter window, the age bounds, the descending sort, offset, limit
  and total;
- `GetById`, including its "soft miss": no row gives no user and no error (for the relational
  backend this is an assumption about the ORM, see "Left out");
- the document backend's `Update`, which applies a `$set` patch.

Everything is pure functions over immutable values:

- A relational table is a `seq<User>`.
- A document collection is a `seq<Doc>`, where `Doc` maps field names to values.
- Timestamps are whole seconds since 0001-01-01 00:00:00 UTC, so Go's zero `time.Time` is `0`.
  The hard-coded "now" (2024-04-17 00:00:00) is `Resolution.Now`.
- Storage failures are parameters of type `Option<DbError>`: `None` means the call succeeds.

Modules:

- `Interfaces`: the data model.
- `Values`: stored values and their sort order.
- `Query`: the store-independent pipeline of filter, stable descending sort and pagination.
- `DbOptions`: session options and `ConfigureDB`.
- `Resolution`: filter defaults.
- `MysqlRepo` and `MongoRepo`: the two backends.
- `Parity`: how the two backends relate on the same users.
- `Scenarios`: the document-store test's seed data and what its `GetAll` cases return on it.

Only a limit of exactly 0 falls back to 30 (repositories/users_mysql.go:36-39,
repositories/users_mongo.go:38-41); a negative limit passes through to the driver.

## Model

| member | source | states |
|---|---|---|
| Resolution.Resolve | repositories/users_mysql.go:31-56 | each field of the plan is the filter's value when set and its default when zero: offset 0, limit 30, the backend's sort key, lower bound now minus 30 days, upper bound now; the age bounds are copied |
| Resolution.ResolvedHasNoUnsetField | repositories/users_mysql.go:36-56 | a resolved plan has a non-zero limit, a non-empty sort key and both date bounds set |
| Resolution.ResolveIdempotent | repositories/users_mongo.go:38-71 | resolving an already resolved plan again changes nothing |
| Resolution.ResolveIgnoresIds | interfaces/interfaces.go:25-34 | the `IDs` field of `Filters` never influences the plan |
| Resolution.ResolveUnset | repositories/users_mysql.go:31-56 | the zero `Filters` value means: offset 0, the first 30 rows, the last 30 days before now, no age bound |
| Resolution.BoundsResolveIndependently | repositories/users_mysql.go:48-56 | supplying one date bound replaces only that bound's default |
| DbOptions.DefaultConfig | utils/mysql.go:25-31 | the default options: no transaction, no lock, no forced primary |
| DbOptions.ApplyAllConcat | utils/mysql.go:34-38 | folding options `a + b` is folding `a`, then folding `b` over the outcome |
| DbOptions.LaterOptionWins | utils/mysql.go:36-38 | an option that sets a field overrides every earlier option, and the value survives every later option that leaves that field alone |
| DbOptions.ResolveOptions | utils/mysql.go:34-38 | the resolved options are the defaults with every option applied in order, first to last |
| DbOptions.AddedShape | utils/mysql.go:45-54 | the appended clauses are a write-replica clause exactly when `FromMaster`, `FOR UPDATE` exactly when `Lock`, nothing else, and write-replica first |
| DbOptions.ConfigureDB | utils/mysql.go:33-57 | with no options the handle is the connection unchanged; otherwise it runs on the transaction if one is set, else on the connection; it keeps that handle's clauses as a prefix and appends a write-replica clause exactly when `FromMaster`, then `FOR UPDATE` on the current table exactly when `Lock`, and nothing else |
| MysqlRepo.WhereMeansAdmits | repositories/users_mysql.go:58-71 | the chained WHERE clauses admit a row exactly when it was created inside the closed window [gte, lte] and its age is inside every non-zero age bound |
| MysqlRepo.ZeroAgeBoundIsNoBound | repositories/users_mysql.go:69-71 | an upper age bound of 0 adds no age condition |
| MysqlRepo.GetAll | repositories/users_mysql.go:73-85 | a failed count returns no users, a zero total and the count's error; a failed page query returns no users and its error; any error means no users |
| MysqlRepo.GetAllSemantics | repositories/users_mysql.go:28-85 | without faults, and assuming the ORM counts the users table (see Left out), the total is the number of admitted rows before paging, and the page is the admitted rows sorted descending on the resolved key, skipping `offset` rows and taking at most `limit` |
| MysqlRepo.GetAllPageBounds | repositories/users_mysql.go:73-83 | the page never holds more users than the total, nor more than a non-negative limit |
| MysqlRepo.GetAllPageSize | repositories/users_mysql.go:78-83 | with a non-negative limit, the page holds exactly `limit` users when that many admitted rows remain after the offset, and otherwise all that remain |
| MysqlRepo.GetAllPageIsOrderedMatches | repositories/users_mysql.go:78-83 | every user on the page is admitted and comes from the table, and the page is in descending order of the sort column |
| MysqlRepo.GetAllIgnoresIds | repositories/users_mysql.go:28-85 | the filter's identifier list never changes the answer |
| MysqlRepo.GetById | repositories/users_mysql.go:22-26 | with no storage failure: no error, and no user exactly when no row has the id; a returned user is in the table and has the id; a storage failure is returned with no user |
| MysqlRepo.FindByIdCorrect | repositories/users_mysql.go:24 | the primary-key lookup finds nothing exactly when no row has the id, and anything it finds is a row with that id |
| MongoRepo.Decode | repositories/users_mongo.go:25 | decoding a document into a user can fail only with a decode error that names one of the five record fields |
| MongoRepo.DecodeEncode | repositories/users_mongo.go:104 | a stored user decodes back to the same user |
| MongoRepo.DecodeIgnoresOtherFields | repositories/users_mongo.go:25 | document fields that are not record fields never change the decoded user |
| MongoRepo.DecodeAll | repositories/users_mongo.go:95-98 | a successful decode of the cursor yields one user per document, each decoded from the document at the same position; decoding fails exactly when some document does not decode, and then with the first such document's error |
| MongoRepo.DecodeAllEncoded | repositories/users_mongo.go:95-98 | decoding a page of stored users gives back those users |
| MongoRepo.FilterMeansAdmits | repositories/users_mongo.go:73-84 | the `$and` filter admits a stored user exactly when it was created strictly after gte and at or before lte, and its age is inside every non-zero age bound |
| MongoRepo.GetAll | repositories/users_mongo.go:36-101 | the total is always 0; "no documents" from the find is an empty answer with no error; any other find or cursor failure is returned with no users; without those failures the answer is an error, a decode failure, exactly when a document of the page does not decode |
| MongoRepo.GetAllOnStoredUsers | repositories/users_mongo.go:36-101 | over stored users (without `_id`, see Left out) and without faults, the page is the admitted users sorted descending on the stored field named by the sort key, skipping `offset` and taking at most `limit` |
| MongoRepo.GetAllPageBounds | repositories/users_mongo.go:53-57 | the page never holds more users than the collection has documents, nor more than a non-negative limit |
| MongoRepo.GetAllIgnoresIds | repositories/users_mongo.go:36-101 | the filter's identifier list never changes the answer |
| MongoRepo.FirstMatch | repositories/users_mongo.go:25 | finds the position of the first document whose `id` equals the id, and finds none exactly when no document has it |
| MongoRepo.GetById | repositories/users_mongo.go:23-34 | no matching document, or an `ErrNoDocuments` failure, is a soft miss with no user and no error; any other failure is returned with no user; a returned user decodes from a document with the id; without a failure, when some document has the id, the answer is the first such document decoded, or its decode error |
| MongoRepo.ApplySetOverrides | repositories/users_mongo.go:116-118 | `$set` overrides exactly the pairs' fields, read as top-level names, and keeps every other field; when no field is named twice, each pair's value is what the document holds afterwards, whatever the order of the pairs |
| MongoRepo.BuildSet | repositories/users_mongo.go:110-114 | the `$set` pairs hold one pair per patch key, in any visiting order, never name a field twice, and say exactly what the patch says |
| MongoRepo.UpdateOne | repositories/users_mongo.go:118 | only the first document with the id changes, and it gains the pairs' fields and values; the collection keeps its length |
| MongoRepo.Update | repositories/users_mongo.go:109-123 | on the first document with the user's id, the patch's fields take the patch's values and every other field keeps its value; other documents are unchanged; a failure is returned and changes nothing |
| MongoRepo.RenameThenGetById | repositories/users_mongo_test.go:419-439 | after setting `name` to "new name" on a stored user, reading it back by id gives the same user with the new name |
| Parity.PlansAgreeButForSortKey | repositories/users_mongo.go:38-71 | both backends resolve the same offset, limit, window and age bounds; without an explicit sort key they default to `created_at` and `createdat` respectively |
| Parity.LowerBoundDiverges | repositories/users_mongo.go:74 | the document store admits a user exactly when the relational store does and the user was not created exactly at the lower bound |
| Parity.BoundaryUserSeparatesBackends | repositories/users_mysql.go:63 | with every filter unset, a user created exactly 30 days before now is returned and counted by the relational store, while the document store returns nothing and a total of 0 |
| Parity.TotalsDiverge | repositories/users_mongo.go:100 | whenever the relational store admits a row, its total is positive, while the document store's total is 0 |
| Parity.DefaultSortKeysReadCreatedAt | repositories/users_mongo.go:48-51 | each backend's default sort key reads the creation time |
| Parity.CreatedAtKeyUnknownToDocumentStore | interfaces/interfaces.go:17-23 | the `created_at` sort key names no stored document field, so the document store returns its matches in storage order |
| Parity.PagesAgreeAwayFromLowerBound | repositories/users_mongo.go:36-101 | on the same users, with a sort key both stores name alike, a non-negative offset and limit, and no user exactly at the lower bound, both backends return the same page |
| Parity.GetByIdAgrees | repositories/users_mongo.go:23-34 | on the same users and without faults, both backends' `GetById` give the same answer, given the relational soft miss assumed of the ORM (see "Left out") |
| Parity.NamedKeysAcrossStores | interfaces/interfaces.go:17-23 | of the three named sort keys, the document store reads `age` and `name` as the relational store does, and `created_at` as a missing field |
| Scenarios.LimitCapsPage | repositories/users_mongo_test.go:179-195 | on the test's seed data, a limit from 1 to 13 with everything else unset returns exactly that many users |
| Scenarios.NewestFirst | repositories/users_mongo_test.go:197-204 | on the seed data, inside the default window and with the default sort and no offset, the first user is the one created on April 16, with id 6 |
| Scenarios.OffsetOneStartsAtSecondNewest | repositories/users_mongo_test.go:206-213 | on the seed data, offset 1 and limit 6 return six users, the first being the one created on April 15 at 23:00, whose id is also 6 |
| Scenarios.LteApril13NewestFirst | repositories/users_mongo_test.go:215-224 | on the seed data, with the upper bound at April 13, 00:00, the first user is the one created exactly then, with id 3 |
| Scenarios.GteApril14ReturnsFour | repositories/users_mongo_test.go:235-244 | on the seed data, with the lower bound at April 14, 00:00, the admitted users are exactly the four created strictly later, and four are returned |
| Scenarios.BetweenApril13And15ReturnsFour | repositories/users_mongo_test.go:246-256 | on the seed data, with the window strictly after April 13 and up to April 15, 00:00, the admitted users are exactly four, and four are returned |
| Scenarios.AgeRangeSelectsFour | repositories/users_mongo_test.go:282-292 | on the seed data, ages 22..45 with everything else unset return exactly four users |
| Scenarios.OrderByAgeOldestFirst | repositories/users_mongo_test.go:258-268 | on the seed data, sorting by age returns all 13 users, with the 66-year-old first and the 55-year-old second |
| Scenarios.OrderByNameThirdFirst | repositories/users_mongo_test.go:270-280 | on the seed data, sorting by name returns all 13 users, with "third" first and "six" second |
| Query.StrictTopTwo | repositories/users_mongo.go:56 | in a descending sort, a row whose key is strictly above all others comes first, and a row strictly above all the rest comes second |
| Query.SelectMultiset | repositories/users_mysql.go:58-71 | filtering keeps every admitted row with its full multiplicity and drops every other row |
| Query.SortDescCorrect | repositories/users_mysql.go:81 | the descending sort returns a permutation of its input whose keys never increase |
| Query.SortAllTiesKeepsOrder | repositories/users_mongo.go:56 | when every row has the same key, the sort keeps storage order |
| Query.Paginate | repositories/users_mysql.go:79-80 | the page is a run of consecutive rows starting after the skipped ones; a non-positive offset skips none; a negative limit places no cap, and otherwise the page holds `limit` rows when enough remain |
| Query.PaginateWindow | repositories/users_mongo.go:53-57 | a page only drops rows, and keeps a descending order descending |
| Query.RunMap | repositories/users_mongo.go:53-86 | running the pipeline over translated rows gives the translation of its answer, when the filter and key agree on each row |
| Values.LeTotal | repositories/users_mongo.go:56 | any two stored values are comparable in the sort order |
| Values.LeTrans | repositories/users_mongo.go:56 | the sort order is transitive |

## Left out

- `Create` and `Delete` on both backends, and the relational `Update`, which passes the patch to the ORM unchanged. Only the document `Update` has semantics of its own.
- `context.Context`, the ORM's `Debug()` logging, connection set-up and all I/O. Storage failures are injected parameters instead.
- Time zones. Timestamps are whole UTC seconds, so `time.Local`, daylight-saving shifts and sub-second precision are not modelled. `AddDate(0, 0, -30)` is a fixed 30 × 86400 seconds.
- Go integer widths. Ids are unbounded naturals, and `Offset`/`Limit` are unbounded integers. Only `Age` keeps its 8-bit range.
- What the drivers do with a negative offset or limit is not visible in the repository. Both backends use one convention: a negative offset skips nothing and a negative limit places no cap. The drivers likely differ here (the ORM omits a negative LIMIT or OFFSET, the document driver reads a negative limit as one batch and its server rejects a negative skip), so `Parity.PagesAgreeAwayFromLowerBound` claims agreement only for a non-negative offset and limit.
- MySQL collation. Strings sort by code point in both stores.
- MysqlRepo.GetAllSemantics: the relational backend writes the sort key verbatim into the ORDER BY text, followed by `DESC`. A key that is a list or an expression (`age, name`, `-age`) is valid SQL and sorts differently, for instance ascending on all but the last column. The model treats every key as one column name: only keys that are plain column names are modelled faithfully. A name that is not a column of the table sorts on `Null` keys, that is in storage order; the database would reject such a query, and the injected failure covers that. The count statement (repositories/users_mysql.go:58-75) names no model or table before `Count(&total)`; the model assumes the ORM counts the rows of the users table, and the ORM may instead report that no table is set. `MysqlRepo.GetAllPageSize`, `Parity.TotalsDiverge` and `Parity.BoundaryUserSeparatesBackends` rest on the same assumption.
- MysqlRepo.GetById: the soft miss, no user and no error, is assumed of the ORM. The repository returns whatever the ORM leaves in a nil user pointer after a lookup that finds no row; the ORM may instead hand back a zero-valued user. `Parity.GetByIdAgrees` holds only under this assumption.
- Ties in the sort keep storage order. Neither database promises an order among equal keys.
- MongoRepo.Decode: the driver's codecs are not in the repository, so which value kinds decode into each field is the model's choice: `id` and `age` accept only in-range integers, `name` only strings, and the two time fields only dates (the driver also accepts, for example, integer milliseconds and date strings for a time, which `Update` can store). Which field's error is reported first is also the model's choice, in record-field order. The driver's wording of the error is not modelled.
- The session options are not passed into the `GetAll` models. On the relational side they only choose the handle, which `DbOptions.ConfigureDB` models. The document backend ignores them.
- `MaxInterval` is declared in the utils package and never used.
- Three assertions of the skipped document-store `GetAll` test do not hold for the code on its own seed data. "offset move" expects id 5 first, but the second-newest user also has id 6 (`Scenarios.OffsetOneStartsAtSecondNewest`). "gte test" expects 2 users, but four were created after the bound (`Scenarios.GteApril14ReturnsFour`). "between gte and lte" expects 2 users, but four fall in that window (`Scenarios.BetweenApril13And15ReturnsFour`). These are expectations of a skipped test, not defects of the repository code.
- MongoRepo.Update: a failing `UpdateOne` is modelled as changing nothing. Partial writes are not modelled. Patch keys are passed to the store unchecked (repositories/users_mongo.go:110-118); the model reads every key as a plain top-level field name, so a dotted key (a path into an embedded document), a `$`-prefixed key or a change to `_id`, which the store treats as a path or rejects, is modelled as setting a field of that literal name.
- MongoRepo.ApplySetOverrides: keys are plain top-level field names (no `.`, no leading `$`, not `_id`). For pairs that name a field twice the model lets the last pair win, while the store rejects such a `$set` as a conflict; `BuildSet` never produces such pairs, because a map's keys are distinct.
- MongoRepo.UpdateOne: each pair's key becomes a top-level field of the document; the store's path reading of dotted keys and its rejection of `$`-prefixed keys and of changes to `_id` are not modelled.
- MongoRepo.GetAllOnStoredUsers: a stored document is modelled without the `_id` that `InsertOne` (repositories/users_mongo.go:104) adds. A sort on `_id`, which the store orders by ObjectId, is modelled as a sort on a missing field and keeps storage order. The same omission applies to `Parity.GetByIdAgrees`, `Parity.PagesAgreeAwayFromLowerBound` and the `Scenarios` collection.

=== FILE: dboptions.dfy ===
/**
 Session options for the relational backend: functional options folded over
 a default configuration, then turned into a query-builder handle that runs
 on the caller's transaction or the shared connection, with an optional
 write-replica clause and an optional row-lock clause appended in that order.
 */
module DbOptions {
  import opened Wrappers

  /** The default page size. */
  const Limit: int := 30

  /** The table a locking clause applies to. */
  datatype TableRef = CurrentTable | TableName(name: string)

  datatype Clause =
    | WriteReplica                                 // route the statement to the primary
    | Locking(strength: string, table: TableRef)   // `FOR <strength>` row lock

  /** The lock clause the options request: `FOR UPDATE` on the current table. */
  const ForUpdate: Clause := Locking("UPDATE", CurrentTable)

  /**
   A query-builder handle, modelled abstractly: the session it runs on (the
   shared connection or a transaction) and the clauses chained onto it.
   */
  datatype Handle = Handle(session: nat, clauses: seq<Clause>)

  /** The option record every functional option edits; `tx == None` is a nil transaction. */
  datatype Config = Config(tx: Option<Handle>, lock: bool, fromMaster: bool)

  /** A functional option: one edit of the option record. */
  type Opt = Config -> Config

  /** No transaction, no lock, no forced primary. */
  function DefaultConfig(): (c: Config)
    ensures c.tx.None? && !c.lock && !c.fromMaster
  {
    Config(None, false, false)
  }

  /** Applies the options one after another, first to last. */
  function ApplyAll(opts: seq<Opt>, c: Config): Config
    decreases |opts|
  {
    if |opts| == 0 then c else ApplyAll(opts[1..], opts[0](c))
  }

  /** Applying `a + b` is applying `a`, then applying `b` to the outcome. */
  lemma {:induction false} ApplyAllConcat(a: seq<Opt>, b: seq<Opt>, c: Config)
    ensures ApplyAll(a + b, c) == ApplyAll(b, ApplyAll(a, c))
    decreases |a|
  {
    if |a| > 0 {
      assert (a + b)[1..] == a[1..] + b;
      ApplyAllConcat(a[1..], b, a[0](c));
    } else {
      assert a + b == b;
    }
  }

  /** The last option is applied last. */
  lemma ApplyAllSnoc(opts: seq<Opt>, g: Opt, c: Config)
    ensures ApplyAll(opts + [g], c) == g(ApplyAll(opts, c))
  {
    ApplyAllConcat(opts, [g], c);
  }

  /** Options that leave `field` alone leave it alone together. */
  lemma {:induction false} ApplyAllPreserves<F>(opts: seq<Opt>, c: Config, field: Config -> F)
    requires forall i, d :: 0 <= i < |opts| ==> field(opts[i](d)) == field(d)
    ensures field(ApplyAll(opts, c)) == field(c)
    decreases |opts|
  {
    if |opts| > 0 {
      ApplyAllPreserves(opts[1..], opts[0](c), field);
    }
  }

  /**
   An option that sets a field overrides every earlier option on that field,
   and the value survives every later option that does not touch it.
   */
  lemma LaterOptionWins<F>(before: seq<Opt>, g: Opt, after: seq<Opt>, c: Config, field: Config -> F, v: F)
    requires forall d :: field(g(d)) == v
    requires forall i, d :: 0 <= i < |after| ==> field(after[i](d)) == field(d)
    ensures field(ApplyAll(before + [g] + after, c)) == v
  {
    ApplyAllConcat(before + [g], after, c);
    ApplyAllSnoc(before, g, c);
    ApplyAllPreserves(after, g(ApplyAll(before, c)), field);
  }

  /** The clauses the resolved options append, in the order they are chained. */
  function Added(q: Config): seq<Clause> {
    (if q.fromMaster then [WriteReplica] else []) + (if q.lock then [ForUpdate] else [])
  }

  /**
   A write-replica clause is appended exactly when the primary is forced, a
   `FOR UPDATE` clause exactly when a lock is requested, nothing else, and
   the write-replica clause first.
   */
  lemma AddedShape(q: Config)
    ensures WriteReplica in Added(q) <==> q.fromMaster
    ensures ForUpdate in Added(q) <==> q.lock
    ensures |Added(q)| == (if q.fromMaster then 1 else 0) + (if q.lock then 1 else 0)
    ensures forall c :: c in Added(q) ==> c == WriteReplica || c == ForUpdate
    ensures q.fromMaster && q.lock ==> Added(q) == [WriteReplica, ForUpdate]
  {
  }

  /** Folds the options over the defaults, first to last. */
  method ResolveOptions(opts: seq<Opt>) returns (q: Config)
    ensures q == ApplyAll(opts, DefaultConfig())
  {
    q := DefaultConfig();
    for i := 0 to |opts|
      invariant q == ApplyAll(opts[..i], DefaultConfig())
    {
      ApplyAllSnoc(opts[..i], opts[i], DefaultConfig());
      assert opts[..i + 1] == opts[..i] + [opts[i]];
      q := opts[i](q);
    }
    assert opts[..|opts|] == opts;
  }

  /**
   Resolves the options and builds the handle: the transaction if one is
   set, the connection otherwise, then the write-replica clause, then the
   lock clause.
   */
  method ConfigureDB(db: Handle, opts: seq<Opt>) returns (chain: Handle)
    ensures opts == [] ==> chain == db
    ensures var q := ApplyAll(opts, DefaultConfig());
            var base := if q.tx.Some? then q.tx.value else db;
            && chain.session == base.session
            && |base.clauses| <= |chain.clauses|
            && chain.clauses[..|base.clauses|] == base.clauses
            && (WriteReplica in chain.clauses[|base.clauses|..] <==> q.fromMaster)
            && (ForUpdate in chain.clauses[|base.clauses|..] <==> q.lock)
            && |chain.clauses| - |base.clauses| == (if q.fromMaster then 1 else 0) + (if q.lock then 1 else 0)
            && (forall c :: c in chain.clauses[|base.clauses|..] ==> c == WriteReplica || c == ForUpdate)
            && (q.fromMaster && q.lock ==> chain.clauses[|base.clauses|..] == [WriteReplica, ForUpdate])
  {
    var q := ResolveOptions(opts);
    chain := db;
    if q.tx.Some? {
      chain := q.tx.value;
    }
    ghost var base := chain;
    if q.fromMaster {
      chain := chain.(clauses := chain.clauses + [WriteReplica]);
    }
    if q.lock {
      chain := chain.(clauses := chain.clauses + [ForUpdate]);
    }
    assert chain.clauses == base.clauses + Added(q);
    assert chain.clauses[..|base.clauses|] == base.clauses;
    assert chain.clauses[|base.clauses|..] == Added(q);
    AddedShape(q);
  }
}

=== FILE: interfaces.dfy ===
/**
 The data model shared by both repository backends: the user record, the
 sort-key names, the caller's filter value and the shapes of the answers
 returned by `GetById` and `GetAll`.
 */
module Interfaces {
  import opened Wrappers

  /** Go's `uint8`: every age and every age bound lies in 0..255. */
  type Uint8 = x: int | 0 <= x < 256

  /**
   A point in time as whole seconds since 0001-01-01 00:00:00 UTC, which is
   the epoch of Go's `time.Time`; the zero `time.Time` (`IsZero`) is 0.
   */
  type Timestamp = int

  const ZeroTime: Timestamp := 0

  datatype User = User(id: nat, name: string, age: Uint8, createdAt: Timestamp, updatedAt: Timestamp)

  /** A sort key is a plain string: the named keys below are not the only representable ones. */
  type OrderBy = string

  const OrderByAge: OrderBy := "age"
  const OrderByName: OrderBy := "name"
  const OrderByCreatedAt: OrderBy := "created_at"

  predicate IsNamedOrderBy(o: OrderBy) {
    o == OrderByAge || o == OrderByName || o == OrderByCreatedAt
  }

  /**
   The caller's partly filled query. A zero field means "unset": 0 for the
   numbers and timestamps, "" for the sort key. `offset` and `limit` are
   signed, so negative values are representable.
   */
  datatype Filters = Filters(
    offset: int,
    limit: int,
    orderBy: OrderBy,
    createdAtGte: Timestamp,
    createdAtLte: Timestamp,
    ageGte: Uint8,
    ageLte: Uint8,
    ids: seq<int>)

  /** The zero `Filters` value: every field unset. */
  const Unset: Filters := Filters(0, 0, "", ZeroTime, ZeroTime, 0, 0, [])

  /** Errors the storage layer can report. */
  datatype DbError =
    | ErrNoDocuments            // the document store's "nothing matched"
    | DecodeFailure(field: string)  // a stored field could not be decoded into `User`
    | StorageFailure(code: int)     // any other failure of the storage engine

  /** What `GetById` returns: a user or `nil`, and an error or `nil`. */
  datatype Lookup = Lookup(user: Option<User>, err: Option<DbError>)

  /** What `GetAll` returns: a page of users, a total count and an error or `nil`. */
  datatype Page = Page(users: seq<User>, total: int, err: Option<DbError>)
}

=== FILE: mongo.dfy ===
/**
 The document backend. Users are stored as documents keyed by the lower-cased
 Go field names. `GetAll` resolves the filters with the default sort key
 `createdat`, keeps documents created strictly after the lower bound and at
 or before the upper one, and always reports a total of 0. `GetById` turns
 "no document" into a soft miss. `Update` sets exactly the patch's keys on
 the first document with the user's id.
 */
module MongoRepo {
  import opened Wrappers
  import opened Interfaces
  import opened Values
  import opened Query
  import opened Resolution

  /** A stored document: field name to value. */
  type Doc = map<string, Value>

  /** The default sort key: the document field `CreatedAt` is stored under. */
  const DefaultSort: OrderBy := "createdat"

  /** A missing field reads as `Null`. */
  function Field(d: Doc, name: string): Value {
    if name in d then d[name] else Null
  }

  function Get(d: Doc): string -> Value {
    name => Field(d, name)
  }

  /**
   A user's fields as the driver stores them, under lower-cased names. The
   `_id` the store adds on insert is not part of the model.
   */
  function Encode(u: User): Doc {
    map["id" := Int(u.id), "name" := Str(u.name), "age" := Int(u.age),
        "createdat" := Time(u.createdAt), "updatedat" := Time(u.updatedAt)]
  }

  // ---------------------------------------------------------------------------
  // Decoding: a missing or null field leaves the Go zero value; fields the
  // record does not have are ignored. Which other kinds each field accepts is
  // this model's choice: integers for `id` and `age` (in range), strings for
  // `name` and dates for the two timestamps; any other kind is an error here.
  // ---------------------------------------------------------------------------

  function DecodeUint(v: Value, name: string): Result<nat, DbError> {
    match v
    case Null => Ok(0)
    case Int(i) => if 0 <= i then Ok(i) else Err(DecodeFailure(name))
    case _ => Err(DecodeFailure(name))
  }

  function DecodeUint8(v: Value, name: string): Result<Uint8, DbError> {
    match v
    case Null => Ok(0)
    case Int(i) => if 0 <= i < 256 then Ok(i) else Err(DecodeFailure(name))
    case _ => Err(DecodeFailure(name))
  }

  function DecodeString(v: Value, name: string): Result<string, DbError> {
    match v
    case Null => Ok("")
    case Str(s) => Ok(s)
    case _ => Err(DecodeFailure(name))
  }

  function DecodeTime(v: Value, name: string): Result<Timestamp, DbError> {
    match v
    case Null => Ok(ZeroTime)
    case Time(t) => Ok(t)
    case _ => Err(DecodeFailure(name))
  }

  /** A document read back as a user; only a field of a record field's name can make it fail. */
  function Decode(d: Doc): (r: Result<User, DbError>)
    ensures r.Err? ==> r.error.DecodeFailure? && r.error.field in {"id", "name", "age", "createdat", "updatedat"}
  {
    var id := DecodeUint(Field(d, "id"), "id");
    var name := DecodeString(Field(d, "name"), "name");
    var age := DecodeUint8(Field(d, "age"), "age");
    var created := DecodeTime(Field(d, "createdat"), "createdat");
    var updated := DecodeTime(Field(d, "updatedat"), "updatedat");
    if id.Err? then Err(id.error)
    else if name.Err? then Err(name.error)
    else if age.Err? then Err(age.error)
    else if created.Err? then Err(created.error)
    else if updated.Err? then Err(updated.error)
    else Ok(User(id.value, name.value, age.value, created.value, updated.value))
  }

  /** Reading back a stored user gives the same user. */
  lemma DecodeEncode(u: User)
    ensures Decode(Encode(u)) == Ok(u)
  {
  }

  /** Fields that are not record fields never change what a document decodes to. */
  lemma DecodeIgnoresOtherFields(d: Doc, k: string, v: Value)
    requires k !in {"id", "name", "age", "createdat", "updatedat"}
    ensures Decode(d[k := v]) == Decode(d)
  {
    assert forall n :: n != k ==> Field(d[k := v], n) == Field(d, n);
  }

  /**
   Decodes every document, failing exactly when some document does not
   decode, and then with the error of the first such document.
   */
  function DecodeAll(docs: seq<Doc>): (r: Result<seq<User>, DbError>)
    ensures r.Ok? ==> |r.value| == |docs|
    ensures r.Ok? ==> forall i :: 0 <= i < |docs| ==> Decode(docs[i]) == Ok(r.value[i])
    ensures r.Err? <==> exists i :: 0 <= i < |docs| && Decode(docs[i]).Err?
    ensures r.Err? ==> exists i :: 0 <= i < |docs| && Decode(docs[i]) == Err(r.error)
                                   && forall j :: 0 <= j < i ==> Decode(docs[j]).Ok?
  {
    if |docs| == 0 then Ok([])
    else match Decode(docs[0])
      case Err(e) => Err(e)
      case Ok(u) =>
        var rest := DecodeAll(docs[1..]);
        assert forall i :: 1 <= i < |docs| ==> docs[1..][i - 1] == docs[i];
        match rest
        case Err(e) =>
          var k :| 0 <= k < |docs| - 1 && Decode(docs[1..][k]) == Err(e)
                   && forall j :: 0 <= j < k ==> Decode(docs[1..][j]).Ok?;
          assert Decode(docs[k + 1]) == Err(e);
          Err(e)
        case Ok(us) => Ok([u] + us)
  }

  lemma {:induction false} DecodeAllEncoded(us: seq<User>)
    ensures DecodeAll(MapSeq(Encode, us)) == Ok(us)
  {
    if |us| > 0 {
      assert MapSeq(Encode, us)[1..] == MapSeq(Encode, us[1..]);
      DecodeEncode(us[0]);
      DecodeAllEncoded(us[1..]);
      assert us == [us[0]] + us[1..];
    }
  }

  // ---------------------------------------------------------------------------
  // GetAll
  // ---------------------------------------------------------------------------

  function PlanOf(f: Filters): Plan {
    Resolve(f, DefaultSort)
  }

  /** The `$and` list of the find filter, in the order it is built. */
  function FilterOf(p: Plan): seq<Cond> {
    [Cond("createdat", AtMost, Time(p.lte)), Cond("createdat", Above, Time(p.gte))]
    + (if p.ageGte != 0 then [Cond("age", AtLeast, Int(p.ageGte))] else [])
    + (if p.ageLte != 0 then [Cond("age", AtMost, Int(p.ageLte))] else [])
  }

  /**
   The users a plan admits here: created strictly after the lower bound and
   at or before the upper one, and inside each age bound that is non-zero.
   */
  predicate Admits(p: Plan, u: User) {
    && p.gte < u.createdAt <= p.lte
    && (p.ageGte != 0 ==> p.ageGte <= u.age)
    && (p.ageLte != 0 ==> u.age <= p.ageLte)
  }

  /** The find filter admits exactly the stored users `Admits` describes. */
  lemma FilterMeansAdmits(p: Plan, u: User)
    ensures Matches(FilterOf(p), Get(Encode(u))) <==> Admits(p, u)
  {
    var window := [Cond("createdat", AtMost, Time(p.lte)), Cond("createdat", Above, Time(p.gte))];
    var lower: seq<Cond> := if p.ageGte != 0 then [Cond("age", AtLeast, Int(p.ageGte))] else [];
    var upper: seq<Cond> := if p.ageLte != 0 then [Cond("age", AtMost, Int(p.ageLte))] else [];
    var g := Get(Encode(u));
    assert FilterOf(p) == window + lower + upper;
    MatchesAppend(window + lower, upper, g);
    MatchesAppend(window, lower, g);
    assert g("createdat") == Time(u.createdAt);
    assert g("age") == Int(u.age);
    assert window == [window[0]] + [window[1]];
    MatchesAppend([window[0]], [window[1]], g);
    MatchesSingleton(window[0], g);
    MatchesSingleton(window[1], g);
    if p.ageGte != 0 {
      MatchesSingleton(lower[0], g);
    }
    if p.ageLte != 0 {
      MatchesSingleton(upper[0], g);
    }
  }

  function Admitting(p: Plan): User -> bool {
    u => Admits(p, u)
  }

  /** A user's stored field, read as a sort key. */
  function StoredKey(o: OrderBy): User -> Value {
    u => Field(Encode(u), o)
  }

  function Keep(p: Plan): Doc -> bool {
    d => Matches(FilterOf(p), Get(d))
  }

  function SortKey(o: OrderBy): Doc -> Value {
    d => Field(d, o)
  }

  /**
   `GetAll`: the total is always 0. "No documents" from the find is an
   empty, successful answer; any other find or cursor failure is returned
   as the error with no users. Without such failures, the answer is an
   error exactly when a document of the page does not decode.
   */
  function GetAll(coll: seq<Doc>, f: Filters, findFault: Option<DbError>, cursorFault: Option<DbError>): (r: Page)
    ensures r.total == 0
    ensures r.err.Some? ==> r.users == []
    ensures findFault == Some(ErrNoDocuments) ==> r == Page([], 0, None)
    ensures findFault.Some? && findFault != Some(ErrNoDocuments) ==> r.err == findFault
    ensures findFault.None? && cursorFault.Some? ==> r.err == cursorFault
    ensures findFault.None? && cursorFault.None? ==>
              var page := Run(coll, Keep(PlanOf(f)), SortKey(PlanOf(f).orderBy), PlanOf(f).offset, PlanOf(f).limit);
              (r.err.Some? <==> exists i :: 0 <= i < |page| && Decode(page[i]).Err?)
              && (r.err.Some? ==> r.err.value.DecodeFailure?)
  {
    var p := PlanOf(f);
    if findFault.Some? then
      if findFault.value == ErrNoDocuments then Page([], 0, None) else Page([], 0, findFault)
    else if cursorFault.Some? then Page([], 0, cursorFault)
    else
      match DecodeAll(Run(coll, Keep(p), SortKey(p.orderBy), p.offset, p.limit))
      case Ok(us) => Page(us, 0, None)
      case Err(e) => Page([], 0, Some(e))
  }

  /** The page never holds more users than the collection has documents, nor more than a non-negative limit. */
  lemma GetAllPageBounds(coll: seq<Doc>, f: Filters, findFault: Option<DbError>, cursorFault: Option<DbError>)
    ensures var r := GetAll(coll, f, findFault, cursorFault);
            && |r.users| <= |coll|
            && (PlanOf(f).limit >= 0 ==> |r.users| <= PlanOf(f).limit)
  {
  }

  /**
   Over a collection of stored users, and without faults, the page is the
   admitted users sorted descending on the stored field named by the sort
   key, windowed by the resolved offset and limit.
   */
  lemma GetAllOnStoredUsers(table: seq<User>, f: Filters)
    ensures var p := PlanOf(f);
            GetAll(MapSeq(Encode, table), f, None, None)
            == Page(Run(table, Admitting(p), StoredKey(p.orderBy), p.offset, p.limit), 0, None)
  {
    var p := PlanOf(f);
    forall i | 0 <= i < |table|
      ensures Keep(p)(Encode(table[i])) == Admits(p, table[i])
    {
      FilterMeansAdmits(p, table[i]);
    }
    RunMap(Encode, table, Keep(p), Admitting(p), SortKey(p.orderBy), StoredKey(p.orderBy), p.offset, p.limit);
    DecodeAllEncoded(Run(table, Admitting(p), StoredKey(p.orderBy), p.offset, p.limit));
  }

  /** The identifier list never narrows the answer. */
  lemma GetAllIgnoresIds(coll: seq<Doc>, f: Filters, ids: seq<int>, findFault: Option<DbError>, cursorFault: Option<DbError>)
    ensures GetAll(coll, f.(ids := ids), findFault, cursorFault) == GetAll(coll, f, findFault, cursorFault)
  {
    ResolveIgnoresIds(f, ids, DefaultSort);
  }

  // ---------------------------------------------------------------------------
  // GetById
  // ---------------------------------------------------------------------------

  /** Whether a document's `id` field equals `id`. */
  predicate HasId(d: Doc, id: int) {
    Field(d, "id") == Int(id)
  }

  /** The position of the first document with the given id. */
  function FirstMatch(coll: seq<Doc>, id: int): (r: Option<nat>)
    ensures r.Some? ==> r.value < |coll| && HasId(coll[r.value], id)
    ensures r.Some? ==> forall i :: 0 <= i < r.value ==> !HasId(coll[i], id)
    ensures r.None? <==> forall i :: 0 <= i < |coll| ==> !HasId(coll[i], id)
  {
    if |coll| == 0 then None
    else if HasId(coll[0], id) then Some(0)
    else match FirstMatch(coll[1..], id)
      case None => None
      case Some(i) => Some(i + 1)
  }

  /**
   `GetById`: no matching document is a soft miss (no user, no error); the
   first matching document is decoded and returned, or its decode error; any
   other failure is returned as the error.
   */
  function GetById(coll: seq<Doc>, id: int, fault: Option<DbError>): (r: Lookup)
    ensures r.user.Some? ==> r.err.None?
    ensures r.err != Some(ErrNoDocuments)
    ensures fault.None? && (forall i :: 0 <= i < |coll| ==> !HasId(coll[i], id)) ==> r == Lookup(None, None)
    ensures fault == Some(ErrNoDocuments) ==> r == Lookup(None, None)
    ensures fault.Some? && fault != Some(ErrNoDocuments) ==> r == Lookup(None, fault)
    ensures r.user.Some? ==> exists i :: 0 <= i < |coll| && HasId(coll[i], id) && Decode(coll[i]) == Ok(r.user.value)
    ensures fault.None? && FirstMatch(coll, id).Some? ==>
              r == match Decode(coll[FirstMatch(coll, id).value])
                   case Ok(u) => Lookup(Some(u), None)
                   case Err(e) => Lookup(None, Some(e))
  {
    var found: Result<User, DbError> :=
      if fault.Some? then Err(fault.value)
      else match FirstMatch(coll, id)
        case None => Err(ErrNoDocuments)
        case Some(i) => Decode(coll[i]);
    match found
    case Ok(u) => Lookup(Some(u), None)
    case Err(e) => if e == ErrNoDocuments then Lookup(None, None) else Lookup(None, Some(e))
  }

  // ---------------------------------------------------------------------------
  // Update
  // ---------------------------------------------------------------------------

  /** The `$set` document: field/value pairs in iteration order. */
  type SetDoc = seq<(string, Value)>

  /** The pairs as a map; a later pair for the same field wins. */
  function AsMap(u: SetDoc): map<string, Value>
  {
    if |u| == 0 then map[] else AsMap(u[..|u| - 1])[u[|u| - 1].0 := u[|u| - 1].1]
  }

  /** No field is named by two pairs; the store rejects a `$set` that would. */
  predicate DistinctKeys(u: SetDoc) {
    forall i, j :: 0 <= i < j < |u| ==> u[i].0 != u[j].0
  }

  /** `$set` applies the pairs in order; each key is read as a top-level field name. */
  function ApplySet(d: Doc, u: SetDoc): Doc
  {
    if |u| == 0 then d else ApplySet(d, u[..|u| - 1])[u[|u| - 1].0 := u[|u| - 1].1]
  }

  /**
   Setting the pairs overrides exactly their fields and keeps every other
   field; when no field is named twice, every pair's value is what the
   document ends up holding, whatever the order of the pairs.
   */
  lemma {:induction false} ApplySetOverrides(d: Doc, u: SetDoc)
    ensures ApplySet(d, u) == d + AsMap(u)
    ensures DistinctKeys(u) ==> forall i :: 0 <= i < |u| ==> u[i].0 in ApplySet(d, u) && ApplySet(d, u)[u[i].0] == u[i].1
  {
    if |u| > 0 {
      var init := u[..|u| - 1];
      ApplySetOverrides(d, init);
      if DistinctKeys(u) {
        assert DistinctKeys(init) by {
          forall i, j | 0 <= i < j < |init| ensures init[i].0 != init[j].0 {
            assert init[i] == u[i] && init[j] == u[j];
          }
        }
        forall i | 0 <= i < |u| ensures u[i].0 in ApplySet(d, u) && ApplySet(d, u)[u[i].0] == u[i].1 {
          if i < |u| - 1 {
            assert u[i] == init[i];
          }
        }
      }
    }
  }

  /**
   Builds the `$set` pairs from the patch, one pair per key in whatever
   order the keys are visited; the pairs say exactly what the patch says.
   */
  method BuildSet(vals: map<string, Value>) returns (updates: SetDoc)
    ensures AsMap(updates) == vals
    ensures |updates| == |vals|
    ensures DistinctKeys(updates)
  {
    updates := [];
    var rest := vals.Keys;
    assert vals - rest == map[];
    while rest != {}
      invariant rest <= vals.Keys
      invariant AsMap(updates) == vals - rest
      invariant |updates| + |rest| == |vals|
      invariant forall i :: 0 <= i < |updates| ==> updates[i].0 in vals.Keys - rest
      invariant DistinctKeys(updates)
      decreases |rest|
    {
      var k :| k in rest;
      var before := updates;
      updates := updates + [(k, vals[k])];
      assert updates[..|updates| - 1] == before;
      assert AsMap(updates) == (vals - rest)[k := vals[k]];
      rest := rest - {k};
    }
    assert vals - rest == vals;
  }

  /** `UpdateOne`: the first document with the id gets the pairs set; nothing else changes. */
  function UpdateOne(coll: seq<Doc>, id: int, pairs: SetDoc): (r: seq<Doc>)
    ensures |r| == |coll|
    ensures forall i :: 0 <= i < |coll| && FirstMatch(coll, id) != Some(i) ==> r[i] == coll[i]
    ensures FirstMatch(coll, id).Some? ==> r[FirstMatch(coll, id).value] == coll[FirstMatch(coll, id).value] + AsMap(pairs)
  {
    match FirstMatch(coll, id)
    case None => coll
    case Some(i) =>
      ApplySetOverrides(coll[i], pairs);
      coll[i := ApplySet(coll[i], pairs)]
  }

  /**
   `Update`: on the first document whose `id` is the user's id, the patch's
   fields take the patch's values and every other field keeps its value;
   every other document is unchanged. A failure leaves the collection as it
   was and is returned.
   */
  method Update(coll: seq<Doc>, user: User, vals: map<string, Value>, fault: Option<DbError>)
    returns (updated: seq<Doc>, err: Option<DbError>)
    ensures err == fault
    ensures fault.Some? ==> updated == coll
    ensures |updated| == |coll|
    ensures forall i :: 0 <= i < |coll| && (fault.Some? || FirstMatch(coll, user.id) != Some(i)) ==> updated[i] == coll[i]
    ensures fault.None? && FirstMatch(coll, user.id).Some? ==>
              var i := FirstMatch(coll, user.id).value;
              && updated[i].Keys == coll[i].Keys + vals.Keys
              && (forall k :: k in vals ==> updated[i][k] == vals[k])
              && (forall k :: k in coll[i] && k !in vals ==> updated[i][k] == coll[i][k])
  {
    var updates := BuildSet(vals);
    if fault.Some? {
      return coll, fault;
    }
    updated := UpdateOne(coll, user.id, updates);
    err := None;
  }

  /**
   After setting `name` to "new name" on a stored user, reading the user
   back by id gives the same user with the new name.
   */
  lemma RenameThenGetById(u: User, pairs: SetDoc)
    requires AsMap(pairs) == map["name" := Str("new name")]
    ensures GetById(UpdateOne([Encode(u)], u.id, pairs), u.id, None) == Lookup(Some(u.(name := "new name")), None)
  {
    assert HasId(Encode(u), u.id);
    var d := Encode(u) + AsMap(pairs);
    assert d == Encode(u.(name := "new name"));
    DecodeEncode(u.(name := "new name"));
  }
}

=== FILE: mysql.dfy ===
/**
 The relational backend: `GetAll` resolves the filters with the default sort
 key `created_at`, counts the admitted rows before paging, then returns them
 sorted descending, skipping `offset` and taking at most `limit`. `GetById`
 returns the row with the given primary key, or no row and no error.
 */
module MysqlRepo {
  import opened Wrappers
  import opened Interfaces
  import opened Values
  import opened Query
  import opened Resolution

  /** The table's columns, as the ORM names them; any other name reads as `Null`. */
  function Column(u: User, name: string): Value {
    if name == "id" then Int(u.id)
    else if name == "name" then Str(u.name)
    else if name == "age" then Int(u.age)
    else if name == "created_at" then Time(u.createdAt)
    else if name == "updated_at" then Time(u.updatedAt)
    else Null
  }

  /** A user as a row read column by column. */
  function Row(u: User): string -> Value {
    name => Column(u, name)
  }

  function PlanOf(f: Filters): Plan {
    Resolve(f, OrderByCreatedAt)
  }

  /** The WHERE clauses, in the order they are chained. */
  function Where(p: Plan): seq<Cond> {
    [Cond("created_at", AtMost, Time(p.lte)), Cond("created_at", AtLeast, Time(p.gte))]
    + (if p.ageGte != 0 then [Cond("age", AtLeast, Int(p.ageGte))] else [])
    + (if p.ageLte != 0 then [Cond("age", AtMost, Int(p.ageLte))] else [])
  }

  /**
   The rows a plan is meant to admit: created inside the closed window, and
   inside each age bound that is non-zero.
   */
  predicate Admits(p: Plan, u: User) {
    && p.gte <= u.createdAt <= p.lte
    && (p.ageGte != 0 ==> p.ageGte <= u.age)
    && (p.ageLte != 0 ==> u.age <= p.ageLte)
  }

  /** The WHERE clauses admit exactly the rows `Admits` describes. */
  lemma WhereMeansAdmits(p: Plan, u: User)
    ensures Matches(Where(p), Row(u)) <==> Admits(p, u)
  {
    var window := [Cond("created_at", AtMost, Time(p.lte)), Cond("created_at", AtLeast, Time(p.gte))];
    var lower: seq<Cond> := if p.ageGte != 0 then [Cond("age", AtLeast, Int(p.ageGte))] else [];
    var upper: seq<Cond> := if p.ageLte != 0 then [Cond("age", AtMost, Int(p.ageLte))] else [];
    assert Where(p) == window + lower + upper;
    MatchesAppend(window + lower, upper, Row(u));
    MatchesAppend(window, lower, Row(u));
    assert Row(u)("created_at") == Time(u.createdAt);
    assert Row(u)("age") == Int(u.age);
    assert window == [window[0]] + [window[1]];
    MatchesAppend([window[0]], [window[1]], Row(u));
    MatchesSingleton(window[0], Row(u));
    MatchesSingleton(window[1], Row(u));
    if p.ageGte != 0 {
      MatchesSingleton(lower[0], Row(u));
    }
    if p.ageLte != 0 {
      MatchesSingleton(upper[0], Row(u));
    }
  }

  /**
   An age bound of 0 is indistinguishable from no bound: with the upper
   bound set to 0, users of every age inside the window pass it.
   */
  lemma ZeroAgeBoundIsNoBound(f: Filters, u: User)
    requires f.ageLte == 0
    ensures Admits(PlanOf(f), u) <==> PlanOf(f).gte <= u.createdAt <= PlanOf(f).lte && (f.ageGte != 0 ==> f.ageGte <= u.age)
  {
  }

  function Keep(p: Plan): User -> bool {
    u => Matches(Where(p), Row(u))
  }

  function SortKey(o: OrderBy): User -> Value {
    u => Column(u, o)
  }

  function Admitting(p: Plan): User -> bool {
    u => Admits(p, u)
  }

  /** Reference semantics: the admitted rows, in storage order. */
  function Admitted(table: seq<User>, p: Plan): seq<User> {
    Select(table, Admitting(p))
  }

  lemma KeepSelectsAdmitted(table: seq<User>, p: Plan)
    ensures Select(table, Keep(p)) == Admitted(table, p)
  {
    forall i | 0 <= i < |table|
      ensures Keep(p)(table[i]) == Admits(p, table[i])
    {
      WhereMeansAdmits(p, table[i]);
    }
    SelectCongruent(table, Keep(p), Admitting(p));
  }

  /**
   `GetAll`: a failed count returns no rows, a zero total and the error,
   without running the page query; a failed page query returns no rows, the
   total and the error.
   */
  function GetAll(table: seq<User>, f: Filters, countFault: Option<DbError>, findFault: Option<DbError>): (r: Page)
    ensures r.err == (if countFault.Some? then countFault else findFault)
    ensures countFault.Some? ==> r.users == [] && r.total == 0
    ensures r.err.Some? ==> r.users == []
  {
    var p := PlanOf(f);
    if countFault.Some? then Page([], 0, countFault)
    else
      var total := |Select(table, Keep(p))|;
      if findFault.Some? then Page([], total, findFault)
      else Page(Run(table, Keep(p), SortKey(p.orderBy), p.offset, p.limit), total, None)
  }

  /**
   Without faults, the total is the number of admitted rows before paging,
   and the page is the admitted rows sorted descending on the resolved key,
   windowed by the resolved offset and limit. The count statement names no
   table; the model takes it to count the users table.
   */
  lemma GetAllSemantics(table: seq<User>, f: Filters)
    ensures var p := PlanOf(f);
            var r := GetAll(table, f, None, None);
            && r.err.None?
            && r.total == |Admitted(table, p)|
            && r.users == Paginate(SortDesc(Admitted(table, p), SortKey(p.orderBy)), p.offset, p.limit)
  {
    KeepSelectsAdmitted(table, PlanOf(f));
  }

  /**
   The page holds no more rows than the total and, for a non-negative
   limit, no more than the limit.
   */
  lemma GetAllPageBounds(table: seq<User>, f: Filters, findFault: Option<DbError>)
    ensures var r := GetAll(table, f, None, findFault);
            && |r.users| <= r.total
            && (PlanOf(f).limit >= 0 ==> |r.users| <= PlanOf(f).limit)
  {
    var p := PlanOf(f);
    SortDescCorrect(Select(table, Keep(p)), SortKey(p.orderBy));
    assert |SortDesc(Select(table, Keep(p)), SortKey(p.orderBy))| == |Select(table, Keep(p))|;
  }

  /**
   With a non-negative limit the page holds exactly `limit` rows when that
   many admitted rows remain after the offset, and all that remain otherwise.
   */
  lemma GetAllPageSize(table: seq<User>, f: Filters)
    requires PlanOf(f).limit >= 0
    ensures var p := PlanOf(f);
            var r := GetAll(table, f, None, None);
            var k := Skipped(p.offset, r.total);
            |r.users| == (if k + p.limit <= r.total then p.limit else r.total - k)
  {
    var p := PlanOf(f);
    GetAllSemantics(table, f);
    SortDescCorrect(Admitted(table, p), SortKey(p.orderBy));
    assert |SortDesc(Admitted(table, p), SortKey(p.orderBy))| == |Admitted(table, p)|;
  }

  /**
   Every row of the page is admitted and comes from the table, and the page
   is in descending order of the resolved sort column.
   */
  lemma GetAllPageIsOrderedMatches(table: seq<User>, f: Filters)
    ensures var p := PlanOf(f);
            var r := GetAll(table, f, None, None);
            && Descending(r.users, SortKey(p.orderBy))
            && (forall i :: 0 <= i < |r.users| ==> Admits(p, r.users[i]))
            && multiset(r.users) <= multiset(table)
  {
    var p := PlanOf(f);
    var adm := Admitted(table, p);
    var sorted := SortDesc(adm, SortKey(p.orderBy));
    var r := Paginate(sorted, p.offset, p.limit);
    GetAllSemantics(table, f);
    SortDescCorrect(adm, SortKey(p.orderBy));
    PaginateWindow(sorted, p.offset, p.limit, SortKey(p.orderBy));
    SelectSubMultiset(table, Admitting(p));
    forall i | 0 <= i < |r|
      ensures Admits(p, r[i])
    {
      assert r[i] in multiset(r);
    }
  }

  /** The identifier list never narrows the answer. */
  lemma GetAllIgnoresIds(table: seq<User>, f: Filters, ids: seq<int>, countFault: Option<DbError>, findFault: Option<DbError>)
    ensures GetAll(table, f.(ids := ids), countFault, findFault) == GetAll(table, f, countFault, findFault)
  {
    ResolveIgnoresIds(f, ids, OrderByCreatedAt);
  }

  /** The first row with the given primary key. */
  function FindById(table: seq<User>, id: int): Option<User>
  {
    if |table| == 0 then None
    else if table[0].id == id then Some(table[0])
    else FindById(table[1..], id)
  }

  /**
   `GetById`: the row with the given key, or a soft miss (no user, no
   error) when there is none; a storage failure is returned as the error.
   The repository's code returns whatever the ORM left in a nil user
   pointer after a lookup that found nothing; the model assumes it stays
   nil.
   */
  function GetById(table: seq<User>, id: int, fault: Option<DbError>): (r: Lookup)
    ensures fault.Some? ==> r == Lookup(None, fault)
    ensures fault.None? ==> r.err.None?
    ensures fault.None? ==> (r.user.None? <==> forall i :: 0 <= i < |table| ==> table[i].id != id)
    ensures r.user.Some? ==> r.user.value in table && r.user.value.id == id
  {
    if fault.Some? then Lookup(None, fault)
    else
      FindByIdCorrect(table, id);
      Lookup(FindById(table, id), None)
  }

  lemma {:induction false} FindByIdCorrect(table: seq<User>, id: int)
    ensures FindById(table, id).None? <==> forall i :: 0 <= i < |table| ==> table[i].id != id
    ensures FindById(table, id).Some? ==> FindById(table, id).value in table && FindById(table, id).value.id == id
  {
    if |table| > 0 && table[0].id != id {
      FindByIdCorrect(table[1..], id);
      assert forall i :: 1 <= i < |table| ==> table[i] == table[1..][i - 1];
    }
  }
}

=== FILE: parity.dfy ===
/**
 How the two backends relate when they hold the same users: they resolve the
 same window, bounds, offset and limit, but the document store's lower date
 bound is strict and its total is always 0. Away from the lower bound, and
 for a sort key both stores name the same way, the pages agree.
 */
module Parity {
  import opened Wrappers
  import opened Interfaces
  import opened Values
  import opened Query
  import opened Resolution
  import MysqlRepo
  import MongoRepo

  /** Both backends resolve the same plan apart from the sort key. */
  lemma PlansAgreeButForSortKey(f: Filters)
    ensures MongoRepo.PlanOf(f) == MysqlRepo.PlanOf(f).(orderBy := MongoRepo.PlanOf(f).orderBy)
    ensures f.orderBy != "" ==> MongoRepo.PlanOf(f) == MysqlRepo.PlanOf(f)
    ensures f.orderBy == "" ==> MysqlRepo.PlanOf(f).orderBy == OrderByCreatedAt && MongoRepo.PlanOf(f).orderBy == "createdat"
  {
  }

  /**
   The document store admits a user exactly when the relational store does
   and the user was not created exactly at the lower bound.
   */
  lemma LowerBoundDiverges(f: Filters, u: User)
    ensures MongoRepo.Admits(MongoRepo.PlanOf(f), u)
            <==> MysqlRepo.Admits(MysqlRepo.PlanOf(f), u) && u.createdAt != MysqlRepo.PlanOf(f).gte
  {
  }

  /** A user created exactly 30 days before "now". */
  const BoundaryUser: User := User(1, "edge", 20, DefaultGte, DefaultGte)

  /**
   With every filter unset, the relational store returns the user created
   exactly at the default lower bound and counts it; the document store
   returns nothing and a total of 0.
   */
  lemma BoundaryUserSeparatesBackends()
    ensures MysqlRepo.GetAll([BoundaryUser], Unset, None, None) == Page([BoundaryUser], 1, None)
    ensures MongoRepo.GetAll([MongoRepo.Encode(BoundaryUser)], Unset, None, None) == Page([], 0, None)
  {
    var p := MysqlRepo.PlanOf(Unset);
    MysqlRepo.GetAllSemantics([BoundaryUser], Unset);
    assert MysqlRepo.Admitted([BoundaryUser], p) == [BoundaryUser];
    MongoRepo.GetAllOnStoredUsers([BoundaryUser], Unset);
    var q := MongoRepo.PlanOf(Unset);
    assert !MongoRepo.Admits(q, BoundaryUser);
    assert Select([BoundaryUser], u => MongoRepo.Admits(q, u)) == [];
    assert MapSeq(MongoRepo.Encode, [BoundaryUser]) == [MongoRepo.Encode(BoundaryUser)];
  }

  /** Whenever the relational store counts a matching row, the two totals differ. */
  lemma TotalsDiverge(table: seq<User>, f: Filters, i: nat)
    requires i < |table| && MysqlRepo.Admits(MysqlRepo.PlanOf(f), table[i])
    ensures MysqlRepo.GetAll(table, f, None, None).total > 0
    ensures MongoRepo.GetAll(MapSeq(MongoRepo.Encode, table), f, None, None).total == 0
  {
    var p := MysqlRepo.PlanOf(f);
    MysqlRepo.GetAllSemantics(table, f);
    SelectNonEmpty(table, MysqlRepo.Admitting(p), i);
  }

  /** The default sort key of each backend reads the creation time. */
  lemma DefaultSortKeysReadCreatedAt(f: Filters, u: User)
    requires f.orderBy == ""
    ensures MysqlRepo.Column(u, MysqlRepo.PlanOf(f).orderBy) == Time(u.createdAt)
    ensures MongoRepo.Field(MongoRepo.Encode(u), MongoRepo.PlanOf(f).orderBy) == Time(u.createdAt)
  {
  }

  /**
   `OrderByCreatedAt` names no field of a stored document, so the document
   store sorts on a missing field and returns matches in storage order.
   */
  lemma CreatedAtKeyUnknownToDocumentStore(docs: seq<User>)
    ensures forall u :: MongoRepo.Field(MongoRepo.Encode(u), OrderByCreatedAt) == Null
    ensures SortDesc(MapSeq(MongoRepo.Encode, docs), MongoRepo.SortKey(OrderByCreatedAt)) == MapSeq(MongoRepo.Encode, docs)
  {
    SortAllTiesKeepsOrder(MapSeq(MongoRepo.Encode, docs), MongoRepo.SortKey(OrderByCreatedAt), Null);
  }

  /**
   Of the three named sort keys, the document store reads `age` and `name`
   as the relational store does, and `created_at` as a missing field.
   */
  lemma NamedKeysAcrossStores(o: OrderBy, u: User)
    requires IsNamedOrderBy(o)
    ensures o != OrderByCreatedAt ==> MongoRepo.StoredKey(o)(u) == MysqlRepo.SortKey(o)(u)
    ensures o == OrderByCreatedAt ==> MongoRepo.StoredKey(o)(u) == Null && MysqlRepo.SortKey(o)(u) == Time(u.createdAt)
  {
  }

  /** Sort keys both stores read the same way. */
  predicate SharedSortKey(o: OrderBy) {
    o == "" || o == "id" || o == "name" || o == "age"
  }

  lemma SharedKeyReadsAlike(f: Filters, u: User)
    requires SharedSortKey(f.orderBy)
    ensures MongoRepo.StoredKey(MongoRepo.PlanOf(f).orderBy)(u) == MysqlRepo.SortKey(MysqlRepo.PlanOf(f).orderBy)(u)
  {
  }

  /**
   On the same users, with a sort key both stores share, a non-negative offset
   and limit, and no user created exactly at the lower bound, the two backends
   return the same page.
   */
  lemma PagesAgreeAwayFromLowerBound(table: seq<User>, f: Filters)
    requires SharedSortKey(f.orderBy)
    requires f.offset >= 0 && f.limit >= 0
    requires forall i :: 0 <= i < |table| ==> table[i].createdAt != MysqlRepo.PlanOf(f).gte
    ensures MongoRepo.GetAll(MapSeq(MongoRepo.Encode, table), f, None, None).users
            == MysqlRepo.GetAll(table, f, None, None).users
  {
    var p := MysqlRepo.PlanOf(f);
    var q := MongoRepo.PlanOf(f);
    var sa := MongoRepo.StoredKey(q.orderBy);
    var sb := MysqlRepo.SortKey(p.orderBy);
    MongoRepo.GetAllOnStoredUsers(table, f);
    MysqlRepo.GetAllSemantics(table, f);
    forall i | 0 <= i < |table|
      ensures MongoRepo.Admitting(q)(table[i]) == MysqlRepo.Admitting(p)(table[i])
    {
      LowerBoundDiverges(f, table[i]);
    }
    SelectCongruent(table, MongoRepo.Admitting(q), MysqlRepo.Admitting(p));
    var adm := MysqlRepo.Admitted(table, p);
    forall u
      ensures sa(u) == sb(u)
    {
      SharedKeyReadsAlike(f, u);
    }
    SortCongruent(adm, sa, sb);
    assert q.offset == p.offset && q.limit == p.limit;
  }

  lemma {:induction false} FirstMatchOfStoredUsers(table: seq<User>, id: int)
    ensures MongoRepo.FirstMatch(MapSeq(MongoRepo.Encode, table), id).None? <==> MysqlRepo.FindById(table, id).None?
    ensures MongoRepo.FirstMatch(MapSeq(MongoRepo.Encode, table), id).Some? ==>
              MysqlRepo.FindById(table, id) == Some(table[MongoRepo.FirstMatch(MapSeq(MongoRepo.Encode, table), id).value])
  {
    if |table| > 0 {
      assert MongoRepo.HasId(MongoRepo.Encode(table[0]), id) <==> table[0].id == id;
      assert MapSeq(MongoRepo.Encode, table)[1..] == MapSeq(MongoRepo.Encode, table[1..]);
      FirstMatchOfStoredUsers(table[1..], id);
    }
  }

  /**
   On the same users and without faults, both backends' `GetById` agree.
   This rests on the relational model's soft miss (no user when no row has
   the id), which is an assumption about the ORM rather than something the
   repository's code settles.
   */
  lemma GetByIdAgrees(table: seq<User>, id: int)
    ensures MongoRepo.GetById(MapSeq(MongoRepo.Encode, table), id, None) == MysqlRepo.GetById(table, id, None)
  {
    FirstMatchOfStoredUsers(table, id);
    var m := MongoRepo.FirstMatch(MapSeq(MongoRepo.Encode, table), id);
    if m.Some? {
      MongoRepo.DecodeEncode(table[m.value]);
    }
  }
}

=== FILE: query.dfy ===
/**
 The store-independent query pipeline both `GetAll` implementations run:
 keep the rows a conjunction of comparisons admits, sort them descending on
 one key, skip `offset` rows and take at most `limit`.
 */
module Query {
  import opened Values

  /** One comparison `field op bound` of a conjunctive predicate. */
  datatype Cond = Cond(field: string, op: CmpOp, bound: Value)

  /** A conjunction of comparisons holds of a row whose fields are read through `get`. */
  predicate Matches(conds: seq<Cond>, get: string -> Value) {
    forall i :: 0 <= i < |conds| ==> Satisfies(get(conds[i].field), conds[i].op, conds[i].bound)
  }

  lemma MatchesAppend(a: seq<Cond>, b: seq<Cond>, get: string -> Value)
    ensures Matches(a + b, get) <==> Matches(a, get) && Matches(b, get)
  {
    if Matches(a, get) && Matches(b, get) {
      forall i | 0 <= i < |a + b|
        ensures Satisfies(get((a + b)[i].field), (a + b)[i].op, (a + b)[i].bound)
      {
        if i >= |a| {
          assert (a + b)[i] == b[i - |a|];
        }
      }
    }
    if Matches(a + b, get) {
      forall i | 0 <= i < |a|
        ensures Satisfies(get(a[i].field), a[i].op, a[i].bound)
      {
        assert (a + b)[i] == a[i];
      }
      forall i | 0 <= i < |b|
        ensures Satisfies(get(b[i].field), b[i].op, b[i].bound)
      {
        assert (a + b)[|a| + i] == b[i];
      }
    }
  }

  lemma MatchesSingleton(c: Cond, get: string -> Value)
    ensures Matches([c], get) <==> Satisfies(get(c.field), c.op, c.bound)
  {
    assert [c][0] == c;
  }

  /** Applies `f` to every element. */
  function MapSeq<A, B>(f: A -> B, s: seq<A>): (r: seq<B>)
    ensures |r| == |s|
    ensures forall i :: 0 <= i < |s| ==> r[i] == f(s[i])
  {
    seq(|s|, i requires 0 <= i < |s| => f(s[i]))
  }

  // ---------------------------------------------------------------------------
  // Filtering
  // ---------------------------------------------------------------------------

  /** The rows `keep` admits, in storage order. */
  function Select<T>(s: seq<T>, keep: T -> bool): (r: seq<T>)
    ensures |r| <= |s|
    ensures forall i :: 0 <= i < |r| ==> keep(r[i])
  {
    if |s| == 0 then []
    else (if keep(s[0]) then [s[0]] else []) + Select(s[1..], keep)
  }

  /** Selection keeps every admitted row with its full multiplicity and nothing else. */
  lemma {:induction false} SelectMultiset<T(!new)>(s: seq<T>, keep: T -> bool)
    ensures forall x :: keep(x) ==> multiset(Select(s, keep))[x] == multiset(s)[x]
    ensures forall x :: !keep(x) ==> multiset(Select(s, keep))[x] == 0
  {
    if |s| > 0 {
      SelectMultiset(s[1..], keep);
      assert s == [s[0]] + s[1..];
    }
  }

  /** Selection only drops rows, and keeps only admitted ones. */
  lemma SelectSubMultiset<T(!new)>(s: seq<T>, keep: T -> bool)
    ensures multiset(Select(s, keep)) <= multiset(s)
    ensures forall x :: x in multiset(Select(s, keep)) ==> keep(x)
  {
    SelectMultiset(s, keep);
    forall x
      ensures multiset(Select(s, keep))[x] <= multiset(s)[x]
    {
      if !keep(x) {
        assert multiset(Select(s, keep))[x] == 0;
      }
    }
  }

  lemma {:induction false} SelectAppend<T>(a: seq<T>, b: seq<T>, keep: T -> bool)
    ensures Select(a + b, keep) == Select(a, keep) + Select(b, keep)
  {
    if |a| > 0 {
      assert (a + b)[1..] == a[1..] + b;
      SelectAppend(a[1..], b, keep);
    } else {
      assert a + b == b;
    }
  }

  lemma {:induction false} SelectNone<T>(s: seq<T>, keep: T -> bool)
    requires forall i :: 0 <= i < |s| ==> !keep(s[i])
    ensures Select(s, keep) == []
  {
    if |s| > 0 {
      SelectNone(s[1..], keep);
    }
  }

  lemma {:induction false} SelectAll<T>(s: seq<T>, keep: T -> bool)
    requires forall i :: 0 <= i < |s| ==> keep(s[i])
    ensures Select(s, keep) == s
  {
    if |s| > 0 {
      SelectAll(s[1..], keep);
      assert s == [s[0]] + s[1..];
    }
  }

  /** A row the test admits makes the selection non-empty. */
  lemma {:induction false} SelectNonEmpty<T>(s: seq<T>, keep: T -> bool, i: nat)
    requires i < |s| && keep(s[i])
    ensures |Select(s, keep)| > 0
  {
    if i > 0 {
      SelectNonEmpty(s[1..], keep, i - 1);
    }
  }

  lemma SelectCons<T>(s: seq<T>, keep: T -> bool)
    requires |s| > 0
    ensures Select(s, keep) == (if keep(s[0]) then [s[0]] else []) + Select(s[1..], keep)
  {
  }

  lemma MapSeqConcat<A, B>(f: A -> B, a: seq<A>, b: seq<A>)
    ensures MapSeq(f, a + b) == MapSeq(f, a) + MapSeq(f, b)
  {
  }

  /** Two admission tests that agree on every row select the same rows. */
  lemma {:induction false} SelectCongruent<T(!new)>(s: seq<T>, k1: T -> bool, k2: T -> bool)
    requires forall i :: 0 <= i < |s| ==> k1(s[i]) == k2(s[i])
    ensures Select(s, k1) == Select(s, k2)
  {
    if |s| > 0 {
      SelectCongruent(s[1..], k1, k2);
    }
  }

  /** Selecting from translated rows is translating the selected rows. */
  lemma {:induction false} SelectMap<A, B>(f: A -> B, s: seq<A>, kb: B -> bool, ka: A -> bool)
    requires forall i :: 0 <= i < |s| ==> kb(f(s[i])) == ka(s[i])
    ensures Select(MapSeq(f, s), kb) == MapSeq(f, Select(s, ka))
  {
    if |s| > 0 {
      var ms := MapSeq(f, s);
      assert ms[0] == f(s[0]);
      assert ms[1..] == MapSeq(f, s[1..]);
      SelectCons(ms, kb);
      SelectCons(s, ka);
      SelectMap(f, s[1..], kb, ka);
      var head := if ka(s[0]) then [s[0]] else [];
      MapSeqConcat(f, head, Select(s[1..], ka));
      assert MapSeq(f, head) == (if kb(ms[0]) then [ms[0]] else []);
    }
  }

  // ---------------------------------------------------------------------------
  // Descending sort
  // ---------------------------------------------------------------------------

  /** Every later row's key is at most every earlier row's key. */
  predicate Descending<T>(s: seq<T>, key: T -> Value) {
    forall i, j :: 0 <= i < j < |s| ==> Le(key(s[j]), key(s[i]))
  }

  /** Every row's key is at most `b`. */
  predicate Bounded<T>(s: seq<T>, key: T -> Value, b: Value) {
    forall i :: 0 <= i < |s| ==> Le(key(s[i]), b)
  }

  lemma BoundedWeaken<T>(s: seq<T>, key: T -> Value, b: Value, c: Value)
    requires Bounded(s, key, b) && Le(b, c)
    ensures Bounded(s, key, c)
  {
    forall i | 0 <= i < |s|
      ensures Le(key(s[i]), c)
    {
      LeTrans(key(s[i]), b, c);
    }
  }

  lemma PrependDescending<T>(h: T, t: seq<T>, key: T -> Value)
    requires Descending(t, key) && Bounded(t, key, key(h))
    ensures Descending([h] + t, key)
  {
    var r := [h] + t;
    forall i, j | 0 <= i < j < |r|
      ensures Le(key(r[j]), key(r[i]))
    {
      assert r[j] == t[j - 1];
      if i > 0 {
        assert r[i] == t[i - 1];
      }
    }
  }

  /** Puts `x` in front of the first row whose key is at most its own. */
  function Insert<T>(x: T, s: seq<T>, key: T -> Value): (r: seq<T>)
    ensures |r| == |s| + 1
  {
    if |s| == 0 then [x]
    else if Le(key(s[0]), key(x)) then [x] + s
    else [s[0]] + Insert(x, s[1..], key)
  }

  lemma {:induction false} InsertPermutes<T>(x: T, s: seq<T>, key: T -> Value)
    ensures multiset(Insert(x, s, key)) == multiset(s) + multiset{x}
  {
    if |s| > 0 && !Le(key(s[0]), key(x)) {
      InsertPermutes(x, s[1..], key);
      assert s == [s[0]] + s[1..];
    }
  }

  /** Inserting into a descending sequence keeps it descending and keeps any common upper bound. */
  lemma {:induction false} InsertDescending<T>(x: T, s: seq<T>, key: T -> Value, b: Value)
    requires Descending(s, key)
    ensures Descending(Insert(x, s, key), key)
    ensures Le(key(x), b) && Bounded(s, key, b) ==> Bounded(Insert(x, s, key), key, b)
  {
    if |s| == 0 {
    } else if Le(key(s[0]), key(x)) {
      LeTotal(key(s[0]), key(s[0]));
      assert Bounded(s, key, key(s[0]));
      BoundedWeaken(s, key, key(s[0]), key(x));
      PrependDescending(x, s, key);
    } else {
      LeTotal(key(s[0]), key(x));
      assert Bounded(s[1..], key, key(s[0]));
      InsertDescending(x, s[1..], key, key(s[0]));
      var t := Insert(x, s[1..], key);
      PrependDescending(s[0], t, key);
      if Le(key(x), b) && Bounded(s, key, b) {
        assert Bounded(s[1..], key, b);
        InsertDescending(x, s[1..], key, b);
      }
    }
  }

  /** A stable insertion sort on descending keys. */
  function SortDesc<T>(s: seq<T>, key: T -> Value): (r: seq<T>)
    ensures |r| == |s|
  {
    if |s| == 0 then [] else Insert(s[0], SortDesc(s[1..], key), key)
  }

  /** The sort returns a permutation of its input whose keys never increase. */
  lemma {:induction false} SortDescCorrect<T>(s: seq<T>, key: T -> Value)
    ensures multiset(SortDesc(s, key)) == multiset(s)
    ensures Descending(SortDesc(s, key), key)
  {
    if |s| > 0 {
      SortDescCorrect(s[1..], key);
      InsertPermutes(s[0], SortDesc(s[1..], key), key);
      InsertDescending(s[0], SortDesc(s[1..], key), key, Null);
      assert s == [s[0]] + s[1..];
    }
  }

  /** A row whose key is strictly above every other row's key is first in any descending permutation. */
  lemma StrictMaxFirst<T>(s: seq<T>, sorted: seq<T>, key: T -> Value, a: nat)
    requires a < |s|
    requires multiset(sorted) == multiset(s)
    requires Descending(sorted, key)
    requires forall i :: 0 <= i < |s| && i != a ==> !Le(key(s[a]), key(s[i]))
    ensures |sorted| == |s| && sorted[0] == s[a]
  {
    assert |sorted| == |s| by {
      assert |multiset(sorted)| == |multiset(s)|;
    }
    assert s[a] in multiset(sorted);
    var ja :| 0 <= ja < |sorted| && sorted[ja] == s[a];
    assert sorted[0] in multiset(s);
    var i0 :| 0 <= i0 < |s| && s[i0] == sorted[0];
    assert Le(key(s[a]), key(sorted[0])) by {
      if ja > 0 {
        assert Le(key(sorted[ja]), key(sorted[0]));
      } else {
        LeRefl(key(s[a]));
      }
    }
    assert i0 == a;
  }

  /** An element that differs from every other element occurs once. */
  lemma OccursOnce<T>(s: seq<T>, a: nat)
    requires a < |s|
    requires forall i :: 0 <= i < |s| && i != a ==> s[i] != s[a]
    ensures multiset(s)[s[a]] == 1
  {
    assert s == s[..a] + [s[a]] + s[a + 1..];
    assert s[a] !in s[..a];
    assert s[a] !in s[a + 1..];
  }

  lemma FirstTwo<T>(s: seq<T>)
    requires |s| >= 2
    ensures multiset(s)[s[0]] >= (if s[1] == s[0] then 2 else 1)
  {
    assert s == [s[0], s[1]] + s[2..];
  }

  /**
   In a descending permutation, when `s[a]`'s key is strictly above every
   other key and `s[b]`'s strictly above every key but `s[a]`'s, `s[a]` comes
   first and `s[b]` second.
   */
  lemma StrictTopTwo<T>(s: seq<T>, sorted: seq<T>, key: T -> Value, a: nat, b: nat)
    requires a < |s| && b < |s| && a != b
    requires multiset(sorted) == multiset(s)
    requires Descending(sorted, key)
    requires forall i :: 0 <= i < |s| && i != a ==> !Le(key(s[a]), key(s[i]))
    requires forall i :: 0 <= i < |s| && i != a && i != b ==> !Le(key(s[b]), key(s[i]))
    ensures |sorted| == |s| && sorted[0] == s[a] && sorted[1] == s[b]
  {
    StrictMaxFirst(s, sorted, key, a);
    forall i | 0 <= i < |s| && i != a
      ensures s[i] != s[a]
    {
      LeRefl(key(s[a]));
    }
    OccursOnce(s, a);
    FirstTwo(sorted);
    assert sorted[1] != s[a];
    assert sorted[1] in multiset(s);
    var i1 :| 0 <= i1 < |s| && s[i1] == sorted[1];
    assert s[b] in multiset(sorted);
    var jb :| 0 <= jb < |sorted| && sorted[jb] == s[b];
    assert jb != 0;
    assert Le(key(s[b]), key(sorted[1])) by {
      if jb > 1 {
        assert Le(key(sorted[jb]), key(sorted[1]));
      } else {
        LeRefl(key(s[b]));
      }
    }
    assert i1 == b;
  }

  lemma {:induction false} InsertMap<A, B>(f: A -> B, x: A, s: seq<A>, kb: B -> Value, ka: A -> Value)
    requires forall a :: kb(f(a)) == ka(a)
    ensures Insert(f(x), MapSeq(f, s), kb) == MapSeq(f, Insert(x, s, ka))
  {
    if |s| > 0 {
      assert MapSeq(f, s)[0] == f(s[0]);
      if !Le(ka(s[0]), ka(x)) {
        assert MapSeq(f, s)[1..] == MapSeq(f, s[1..]);
        InsertMap(f, x, s[1..], kb, ka);
        var t := Insert(x, s[1..], ka);
        assert MapSeq(f, [s[0]] + t) == [f(s[0])] + MapSeq(f, t);
      } else {
        assert MapSeq(f, [x] + s) == [f(x)] + MapSeq(f, s);
      }
    }
  }

  /** Sorting translated rows is translating the sorted rows, when the keys agree. */
  lemma {:induction false} SortMap<A, B>(f: A -> B, s: seq<A>, kb: B -> Value, ka: A -> Value)
    requires forall a :: kb(f(a)) == ka(a)
    ensures SortDesc(MapSeq(f, s), kb) == MapSeq(f, SortDesc(s, ka))
  {
    if |s| > 0 {
      assert MapSeq(f, s)[1..] == MapSeq(f, s[1..]);
      assert MapSeq(f, s)[0] == f(s[0]);
      SortMap(f, s[1..], kb, ka);
      InsertMap(f, s[0], SortDesc(s[1..], ka), kb, ka);
    }
  }

  /** Sorting on two keys that agree on every row gives the same order. */
  lemma SortCongruent<T>(s: seq<T>, k1: T -> Value, k2: T -> Value)
    requires forall a :: k1(a) == k2(a)
    ensures SortDesc(s, k1) == SortDesc(s, k2)
  {
    var id := (a: T) => a;
    SortMap(id, s, k1, k2);
    assert MapSeq(id, s) == s;
    assert MapSeq(id, SortDesc(s, k2)) == SortDesc(s, k2);
  }

  /** When every row has the same key the sort keeps storage order. */
  lemma {:induction false} SortAllTiesKeepsOrder<T>(s: seq<T>, key: T -> Value, v: Value)
    requires forall i :: 0 <= i < |s| ==> key(s[i]) == v
    ensures SortDesc(s, key) == s
  {
    if |s| > 0 {
      SortAllTiesKeepsOrder(s[1..], key, v);
      LeTotal(v, v);
      if |s| > 1 {
        assert key(s[1..][0]) == v;
      }
    }
  }

  // ---------------------------------------------------------------------------
  // Pagination
  // ---------------------------------------------------------------------------

  /** How many rows an offset skips: a non-positive offset skips none. */
  function Skipped(offset: int, n: nat): (k: nat)
    ensures k <= n
    ensures 0 < offset <= n ==> k == offset
  {
    if offset <= 0 then 0 else if offset >= n then n else offset
  }

  /**
   The window of consecutive rows starting after the skipped ones, holding
   at most `limit` rows; a negative limit places no cap.
   */
  function Paginate<T>(s: seq<T>, offset: int, limit: int): (r: seq<T>)
    ensures |r| <= |s| - Skipped(offset, |s|)
    ensures r == s[Skipped(offset, |s|)..Skipped(offset, |s|) + |r|]
    ensures limit >= 0 && Skipped(offset, |s|) + limit <= |s| ==> |r| == limit
    ensures limit < 0 || Skipped(offset, |s|) + limit >= |s| ==> |r| == |s| - Skipped(offset, |s|)
  {
    var k := Skipped(offset, |s|);
    if limit < 0 || k + limit >= |s| then s[k..] else s[k..k + limit]
  }

  /** A page is a window of its input: it only drops rows and keeps their order. */
  lemma PaginateWindow<T>(s: seq<T>, offset: int, limit: int, key: T -> Value)
    ensures multiset(Paginate(s, offset, limit)) <= multiset(s)
    ensures Descending(s, key) ==> Descending(Paginate(s, offset, limit), key)
  {
    var k := Skipped(offset, |s|);
    var r := Paginate(s, offset, limit);
    assert r == s[k..k + |r|];
    SliceSubMultiset(s, k, k + |r|);
    if Descending(s, key) {
      SliceDescending(s, k, k + |r|, key);
    }
  }

  lemma SliceDescending<T>(s: seq<T>, lo: nat, hi: nat, key: T -> Value)
    requires lo <= hi <= |s| && Descending(s, key)
    ensures Descending(s[lo..hi], key)
  {
    var r := s[lo..hi];
    forall i, j | 0 <= i < j < |r|
      ensures Le(key(r[j]), key(r[i]))
    {
      assert r[i] == s[lo + i] && r[j] == s[lo + j];
    }
  }

  lemma SliceSubMultiset<T>(s: seq<T>, lo: nat, hi: nat)
    requires lo <= hi <= |s|
    ensures multiset(s[lo..hi]) <= multiset(s)
  {
    assert s == s[..lo] + s[lo..hi] + s[hi..];
    assert multiset(s) == multiset(s[..lo]) + multiset(s[lo..hi]) + multiset(s[hi..]);
  }

  lemma PaginateMap<A, B>(f: A -> B, s: seq<A>, offset: int, limit: int)
    ensures Paginate(MapSeq(f, s), offset, limit) == MapSeq(f, Paginate(s, offset, limit))
  {
  }

  /** The full pipeline: filter, then sort descending, then paginate. */
  function Run<T>(s: seq<T>, keep: T -> bool, key: T -> Value, offset: int, limit: int): seq<T>
  {
    Paginate(SortDesc(Select(s, keep), key), offset, limit)
  }

  /** Running the pipeline over translated rows is translating its answer. */
  lemma RunMap<A, B>(f: A -> B, s: seq<A>, kb: B -> bool, ka: A -> bool,
                             sb: B -> Value, sa: A -> Value, offset: int, limit: int)
    requires forall i :: 0 <= i < |s| ==> kb(f(s[i])) == ka(s[i])
    requires forall a :: sb(f(a)) == sa(a)
    ensures Run(MapSeq(f, s), kb, sb, offset, limit) == MapSeq(f, Run(s, ka, sa, offset, limit))
  {
    SelectMap(f, s, kb, ka);
    SortMap(f, Select(s, ka), sb, sa);
    PaginateMap(f, SortDesc(Select(s, ka), sa), offset, limit);
  }
}

=== FILE: resolution.dfy ===
/**
 Default resolution: how a partly filled `Filters` becomes a query plan with
 no unset field. Both backends follow these rules; they differ only in the
 default sort key, which each passes in.
 */
module Resolution {
  import opened Interfaces
  import DbOptions

  const Day: int := 86400

  /** The hard-coded "now": 2024-04-17 00:00:00, in seconds since 0001-01-01. */
  const Now: Timestamp := 63848908800

  /** The default window reaches back 30 days from `Now`. */
  const DefaultGte: Timestamp := Now - 30 * Day

  /** A fully resolved query. */
  datatype Plan = Plan(
    offset: int,
    limit: int,
    orderBy: OrderBy,
    gte: Timestamp,
    lte: Timestamp,
    ageGte: Uint8,
    ageLte: Uint8)

  /**
   Every set field is kept as given and every unset field takes its default:
   offset 0, limit 30, the backend's sort key, the window [now - 30 days, now].
   Only a zero triggers a default, so negative offsets and limits pass
   through, and the age bounds are copied unchanged.
   */
  function Resolve(f: Filters, defaultSort: OrderBy): (p: Plan)
    ensures p.offset == f.offset
    ensures p.limit == (if f.limit == 0 then DbOptions.Limit else f.limit)
    ensures p.orderBy == (if f.orderBy == "" then defaultSort else f.orderBy)
    ensures p.gte == (if f.createdAtGte == ZeroTime then DefaultGte else f.createdAtGte)
    ensures p.lte == (if f.createdAtLte == ZeroTime then Now else f.createdAtLte)
    ensures p.ageGte == f.ageGte && p.ageLte == f.ageLte
  {
    var offset := if f.offset != 0 then f.offset else 0;
    var limit := if f.limit != 0 then f.limit else DbOptions.Limit;
    var orderBy := if f.orderBy != "" then f.orderBy else defaultSort;
    var gte := if f.createdAtGte != ZeroTime then f.createdAtGte else DefaultGte;
    var lte := if f.createdAtLte != ZeroTime then f.createdAtLte else Now;
    Plan(offset, limit, orderBy, gte, lte, f.ageGte, f.ageLte)
  }

  /** A plan written back as a `Filters` value. */
  function AsFilters(p: Plan): Filters {
    Filters(p.offset, p.limit, p.orderBy, p.gte, p.lte, p.ageGte, p.ageLte, [])
  }

  /** A resolved plan leaves nothing unset (given a non-empty default sort key). */
  lemma ResolvedHasNoUnsetField(f: Filters, defaultSort: OrderBy)
    requires defaultSort != ""
    ensures var p := Resolve(f, defaultSort);
            p.limit != 0 && p.orderBy != "" && p.gte != ZeroTime && p.lte != ZeroTime
  {
  }

  /** Resolving a resolved plan again changes nothing. */
  lemma ResolveIdempotent(f: Filters, defaultSort: OrderBy)
    requires defaultSort != ""
    ensures Resolve(AsFilters(Resolve(f, defaultSort)), defaultSort) == Resolve(f, defaultSort)
  {
  }

  /** The identifier list is never read. */
  lemma ResolveIgnoresIds(f: Filters, ids: seq<int>, defaultSort: OrderBy)
    ensures Resolve(f.(ids := ids), defaultSort) == Resolve(f, defaultSort)
  {
  }

  /** The zero `Filters` value resolves to the first 30 rows of the last 30 days. */
  lemma ResolveUnset(defaultSort: OrderBy)
    ensures Resolve(Unset, defaultSort) == Plan(0, 30, defaultSort, Now - 2592000, Now, 0, 0)
  {
  }

  /** A supplied date bound replaces only its own default. */
  lemma BoundsResolveIndependently(f: Filters, t: Timestamp, defaultSort: OrderBy)
    requires t != ZeroTime
    ensures Resolve(f.(createdAtGte := t), defaultSort).lte == Resolve(f, defaultSort).lte
    ensures Resolve(f.(createdAtGte := t), defaultSort).gte == t
    ensures Resolve(f.(createdAtLte := t), defaultSort).gte == Resolve(f, defaultSort).gte
    ensures Resolve(f.(createdAtLte := t), defaultSort).lte == t
  {
  }
}

=== FILE: scenarios.dfy ===
/**
 The document-store test's seed data, and what the queries its `GetAll`
 cases issue return on it.
 */
module Scenarios {
  import opened Wrappers
  import opened Interfaces
  import opened Values
  import opened Query
  import opened Resolution
  import MongoRepo

  const Hour: int := 3600

  /** Midnight on April `day`, 2024. */
  function April(day: int): Timestamp {
    Now - (17 - day) * Day
  }

  /**
   Seven users aged 10..16 created at midnight on April 10..16, then six
   named users created at 23:00 on April 10..15.
   */
  const Seed: seq<User> := [
    User(0, "asdsa", 10, April(10), ZeroTime),
    User(1, "asdsa", 11, April(11), ZeroTime),
    User(2, "asdsa", 12, April(12), ZeroTime),
    User(3, "asdsa", 13, April(13), ZeroTime),
    User(4, "asdsa", 14, April(14), ZeroTime),
    User(5, "asdsa", 15, April(15), ZeroTime),
    User(6, "asdsa", 16, April(16), ZeroTime),
    User(1, "first", 55, April(10) + 23 * Hour, ZeroTime),
    User(2, "second", 22, April(11) + 23 * Hour, ZeroTime),
    User(3, "third", 40, April(12) + 23 * Hour, ZeroTime),
    User(4, "forth", 30, April(13) + 23 * Hour, ZeroTime),
    User(5, "five", 45, April(14) + 23 * Hour, ZeroTime),
    User(6, "six", 66, April(15) + 23 * Hour, ZeroTime)
  ]

  /** The seed users as the store holds them. */
  const Stored: seq<MongoRepo.Doc> := MapSeq(MongoRepo.Encode, Seed)

  /** What a query over the seed data returns, without faults. */
  function Answer(f: Filters): Page {
    MongoRepo.GetAll(Stored, f, None, None)
  }

  /**
   Selecting from rows that alternate between runs the test rejects and runs
   it admits keeps exactly the admitted runs.
   */
  lemma SelectAlternating<T>(a: seq<T>, b: seq<T>, c: seq<T>, d: seq<T>, e: seq<T>, keep: T -> bool)
    requires forall i :: 0 <= i < |a| ==> !keep(a[i])
    requires forall i :: 0 <= i < |b| ==> keep(b[i])
    requires forall i :: 0 <= i < |c| ==> !keep(c[i])
    requires forall i :: 0 <= i < |d| ==> keep(d[i])
    requires forall i :: 0 <= i < |e| ==> !keep(e[i])
    ensures Select(a + b + c + d + e, keep) == b + d
  {
    SelectNone(a, keep);
    SelectAll(b, keep);
    SelectNone(c, keep);
    SelectAll(d, keep);
    SelectNone(e, keep);
    SelectAppend(a, b, keep);
    assert Select(a + b, keep) == b;
    SelectAppend(a + b, c, keep);
    assert Select(a + b + c, keep) == b;
    SelectAppend(a + b + c, d, keep);
    assert Select(a + b + c + d, keep) == b + d;
    SelectAppend(a + b + c + d, e, keep);
  }

  /** The key each sort order reads from a stored user. */
  lemma StoredKeys(u: User)
    ensures MongoRepo.StoredKey("createdat")(u) == Time(u.createdAt)
    ensures MongoRepo.StoredKey(OrderByAge)(u) == Int(u.age)
    ensures MongoRepo.StoredKey(OrderByName)(u) == Str(u.name)
  {
  }

  // ---------------------------------------------------------------------------
  // The default window: every seed user was created in the 30 days before now
  // ---------------------------------------------------------------------------

  /** Filters that leave the date window and the age bounds unset. */
  predicate DefaultWindow(f: Filters) {
    f.createdAtGte == ZeroTime && f.createdAtLte == ZeroTime && f.ageGte == 0 && f.ageLte == 0
  }

  lemma SeedAllInDefaultWindow(f: Filters)
    requires DefaultWindow(f)
    ensures Select(Seed, MongoRepo.Admitting(MongoRepo.PlanOf(f))) == Seed
  {
    var q := MongoRepo.PlanOf(f);
    forall i | 0 <= i < |Seed|
      ensures MongoRepo.Admitting(q)(Seed[i])
    {
      assert q.gte < Seed[i].createdAt <= q.lte;
    }
    SelectAll(Seed, MongoRepo.Admitting(q));
  }

  /** Inside the default window the answer is every seed user, sorted and windowed. */
  lemma DefaultWindowPage(f: Filters)
    requires DefaultWindow(f)
    ensures var q := MongoRepo.PlanOf(f);
            Answer(f) == Page(Paginate(SortDesc(Seed, MongoRepo.StoredKey(q.orderBy)), q.offset, q.limit), 0, None)
  {
    MongoRepo.GetAllOnStoredUsers(Seed, f);
    SeedAllInDefaultWindow(f);
  }

  /** "check limit to 2" and "to 6": a limit of 1 to 13 returns that many users. */
  lemma LimitCapsPage(n: int)
    requires 1 <= n <= 13
    ensures |Answer(Unset.(limit := n)).users| == n
  {
    var f := Unset.(limit := n);
    DefaultWindowPage(f);
    assert |SortDesc(Seed, MongoRepo.StoredKey(MongoRepo.PlanOf(f).orderBy))| == 13;
  }

  /** With no offset and a non-zero limit, a non-empty input's first row heads the page. */
  lemma PageStartsAtTop<T>(s: seq<T>, offset: int, limit: int)
    requires |s| > 0 && offset <= 0 && limit != 0
    ensures |Paginate(s, offset, limit)| > 0 && Paginate(s, offset, limit)[0] == s[0]
  {
  }

  /**
   Without an offset, the admitted user whose sort key is strictly above
   every other admitted user's heads the page.
   */
  lemma PageHead(table: seq<User>, f: Filters, s: seq<User>, a: nat)
    requires Select(table, MongoRepo.Admitting(MongoRepo.PlanOf(f))) == s
    requires f.offset <= 0 && a < |s|
    requires forall i :: 0 <= i < |s| && i != a ==>
               !Le(MongoRepo.StoredKey(MongoRepo.PlanOf(f).orderBy)(s[a]), MongoRepo.StoredKey(MongoRepo.PlanOf(f).orderBy)(s[i]))
    ensures var r := MongoRepo.GetAll(MapSeq(MongoRepo.Encode, table), f, None, None);
            |r.users| > 0 && r.users[0] == s[a]
  {
    var q := MongoRepo.PlanOf(f);
    var key := MongoRepo.StoredKey(q.orderBy);
    MongoRepo.GetAllOnStoredUsers(table, f);
    SortDescCorrect(s, key);
    StrictMaxFirst(s, SortDesc(s, key), key, a);
    PageStartsAtTop(SortDesc(s, key), q.offset, q.limit);
  }

  /** The newest seed user is the one of April 16, 00:00; the next newest the one of April 15, 23:00. */
  lemma SeedNewestTwo()
    ensures forall i :: 0 <= i < |Seed| && i != 6 ==>
              !Le(MongoRepo.StoredKey("createdat")(Seed[6]), MongoRepo.StoredKey("createdat")(Seed[i]))
    ensures forall i :: 0 <= i < |Seed| && i != 6 && i != 12 ==>
              !Le(MongoRepo.StoredKey("createdat")(Seed[12]), MongoRepo.StoredKey("createdat")(Seed[i]))
  {
    var key := MongoRepo.StoredKey("createdat");
    forall i | 0 <= i < |Seed|
      ensures i != 6 ==> !Le(key(Seed[6]), key(Seed[i]))
      ensures i != 6 && i != 12 ==> !Le(key(Seed[12]), key(Seed[i]))
    {
      StoredKeys(Seed[i]);
      StoredKeys(Seed[6]);
      StoredKeys(Seed[12]);
      if i < 7 {
        assert Seed[..7][i] == Seed[i];
      }
    }
  }

  /**
   "lte default" and "offset beging": with the default window and sort key
   and no offset, the newest user, id 6 created on April 16, comes first.
   */
  lemma NewestFirst(f: Filters)
    requires DefaultWindow(f) && f.orderBy == "" && f.offset <= 0
    ensures var r := Answer(f);
            |r.users| > 0 && r.users[0] == Seed[6] && r.users[0].id == 6
  {
    var q := MongoRepo.PlanOf(f);
    assert q.orderBy == "createdat";
    var key := MongoRepo.StoredKey("createdat");
    SeedNewestTwo();
    SeedTopTwo(key, 6, 12);
    DefaultWindowPage(f);
    PageStartsAtTop(SortDesc(Seed, key), q.offset, q.limit);
  }

  // ---------------------------------------------------------------------------
  // Date bounds
  // ---------------------------------------------------------------------------

  const LteApril13: Filters := Unset.(createdAtLte := April(13))

  /** Created on or before April 13, 00:00: the first four midnights and the first three named users. */
  lemma LteSelection()
    ensures Select(Seed, MongoRepo.Admitting(MongoRepo.PlanOf(LteApril13))) == Seed[..4] + Seed[7..10]
  {
    var keep := MongoRepo.Admitting(MongoRepo.PlanOf(LteApril13));
    assert Seed == [] + Seed[..4] + Seed[4..7] + Seed[7..10] + Seed[10..];
    forall i | 0 <= i < 4
      ensures keep(Seed[..4][i])
    {
      assert Seed[..4][i] == Seed[i];
    }
    forall i | 0 <= i < 3
      ensures !keep(Seed[4..7][i]) && keep(Seed[7..10][i]) && !keep(Seed[10..][i])
    {
    }
    SelectAlternating([], Seed[..4], Seed[4..7], Seed[7..10], Seed[10..], keep);
  }

  /** "lte test": with the upper bound at April 13, 00:00, the user created exactly then, id 3, comes first. */
  lemma LteApril13NewestFirst()
    ensures var r := Answer(LteApril13);
            |r.users| > 0 && r.users[0] == Seed[3] && r.users[0].id == 3
  {
    var key := MongoRepo.StoredKey(MongoRepo.PlanOf(LteApril13).orderBy);
    var s := Seed[..4] + Seed[7..10];
    LteSelection();
    forall i | 0 <= i < |s| && i != 3
      ensures !Le(key(s[3]), key(s[i]))
    {
      StoredKeys(s[i]);
      StoredKeys(s[3]);
    }
    PageHead(Seed, LteApril13, s, 3);
  }

  const GteApril14: Filters := Unset.(createdAtGte := April(14))

  /**
   "gte test": created strictly after April 14, 00:00 are the users of April
   15 and 16 at midnight and of April 14 and 15 at 23:00.
   */
  lemma GteApril14ReturnsFour()
    ensures Select(Seed, MongoRepo.Admitting(MongoRepo.PlanOf(GteApril14))) == Seed[5..7] + Seed[11..]
    ensures |Answer(GteApril14).users| == 4
  {
    var keep := MongoRepo.Admitting(MongoRepo.PlanOf(GteApril14));
    assert Seed == Seed[..5] + Seed[5..7] + Seed[7..11] + Seed[11..] + [];
    forall i | 0 <= i < 5
      ensures !keep(Seed[..5][i])
    {
      assert Seed[..5][i] == Seed[i];
    }
    forall i | 0 <= i < 4
      ensures !keep(Seed[7..11][i])
    {
    }
    forall i | 0 <= i < 2
      ensures keep(Seed[5..7][i]) && keep(Seed[11..][i])
    {
    }
    SelectAlternating(Seed[..5], Seed[5..7], Seed[7..11], Seed[11..], [], keep);
    MongoRepo.GetAllOnStoredUsers(Seed, GteApril14);
    var q := MongoRepo.PlanOf(GteApril14);
    assert |SortDesc(Seed[5..7] + Seed[11..], MongoRepo.StoredKey(q.orderBy))| == 4;
  }

  const BetweenApril13And15: Filters := Unset.(createdAtGte := April(13), createdAtLte := April(15))

  /**
   "between gte and lte": strictly after April 13, 00:00 and at or before
   April 15, 00:00 are the midnights of April 14 and 15 and the 23:00 users
   of April 13 and 14.
   */
  lemma BetweenApril13And15ReturnsFour()
    ensures Select(Seed, MongoRepo.Admitting(MongoRepo.PlanOf(BetweenApril13And15))) == Seed[4..6] + Seed[10..12]
    ensures |Answer(BetweenApril13And15).users| == 4
  {
    var keep := MongoRepo.Admitting(MongoRepo.PlanOf(BetweenApril13And15));
    assert Seed == Seed[..4] + Seed[4..6] + Seed[6..10] + Seed[10..12] + Seed[12..];
    forall i | 0 <= i < 4
      ensures !keep(Seed[..4][i]) && !keep(Seed[6..10][i])
    {
      assert Seed[..4][i] == Seed[i];
    }
    forall i | 0 <= i < 2
      ensures keep(Seed[4..6][i]) && keep(Seed[10..12][i])
    {
    }
    assert !keep(Seed[12..][0]);
    SelectAlternating(Seed[..4], Seed[4..6], Seed[6..10], Seed[10..12], Seed[12..], keep);
    MongoRepo.GetAllOnStoredUsers(Seed, BetweenApril13And15);
    var q := MongoRepo.PlanOf(BetweenApril13And15);
    assert |SortDesc(Seed[4..6] + Seed[10..12], MongoRepo.StoredKey(q.orderBy))| == 4;
  }

  // ---------------------------------------------------------------------------
  // Age bounds
  // ---------------------------------------------------------------------------

  const AgeRange: Filters := Unset.(ageGte := 22, ageLte := 45)

  /** Ages 22..45 admit the named users aged 22, 40, 30 and 45. */
  lemma AgeRangeSelection()
    ensures Select(Seed, MongoRepo.Admitting(MongoRepo.PlanOf(AgeRange))) == Seed[8..12]
  {
    var keep := MongoRepo.Admitting(MongoRepo.PlanOf(AgeRange));
    assert Seed == Seed[..8] + Seed[8..12] + Seed[12..] + [] + [];
    forall i | 0 <= i < 8
      ensures !keep(Seed[..8][i])
    {
      assert Seed[..8][i] == Seed[i];
    }
    forall i | 0 <= i < 4
      ensures keep(Seed[8..12][i])
    {
    }
    assert !keep(Seed[12..][0]);
    SelectAlternating(Seed[..8], Seed[8..12], Seed[12..], [], [], keep);
  }

  /** "age range": ages 22..45 with everything else unset return exactly four users. */
  lemma AgeRangeSelectsFour()
    ensures var r := Answer(AgeRange);
            |r.users| == 4 && r.total == 0 && r.err.None?
  {
    var q := MongoRepo.PlanOf(AgeRange);
    MongoRepo.GetAllOnStoredUsers(Seed, AgeRange);
    AgeRangeSelection();
    assert |SortDesc(Seed[8..12], MongoRepo.StoredKey(q.orderBy))| == 4;
  }

  // ---------------------------------------------------------------------------
  // Sort keys
  // ---------------------------------------------------------------------------

  /**
   Sorting the seed users descending on a key puts `Seed[a]` first and
   `Seed[b]` second when their keys are strictly the two highest.
   */
  lemma SeedTopTwo(key: User -> Value, a: nat, b: nat)
    requires a < |Seed| && b < |Seed| && a != b
    requires forall i :: 0 <= i < |Seed| && i != a ==> !Le(key(Seed[a]), key(Seed[i]))
    requires forall i :: 0 <= i < |Seed| && i != a && i != b ==> !Le(key(Seed[b]), key(Seed[i]))
    ensures var sorted := SortDesc(Seed, key);
            |sorted| == 13 && sorted[0] == Seed[a] && sorted[1] == Seed[b]
  {
    SortDescCorrect(Seed, key);
    StrictTopTwo(Seed, SortDesc(Seed, key), key, a, b);
  }

  /** A page with no offset and a limit of at least the row count is every row. */
  lemma WholePage<T>(s: seq<T>, offset: int, limit: int)
    requires offset <= 0 && limit >= |s|
    ensures Paginate(s, offset, limit) == s
  {
  }

  const OffsetOne: Filters := Unset.(offset := 1, limit := 6)

  /**
   "offset move": one row in, the page starts at the second newest user,
   who was created on April 15 at 23:00 and also has id 6.
   */
  lemma OffsetOneStartsAtSecondNewest()
    ensures var r := Answer(OffsetOne);
            |r.users| == 6 && r.users[0] == Seed[12] && r.users[0].id == 6
  {
    var key := MongoRepo.StoredKey("createdat");
    assert MongoRepo.PlanOf(OffsetOne).orderBy == "createdat";
    SeedNewestTwo();
    SeedTopTwo(key, 6, 12);
    DefaultWindowPage(OffsetOne);
    var r := Paginate(SortDesc(Seed, key), 1, 6);
    assert r == SortDesc(Seed, key)[1..7];
  }

  const ByAge: Filters := Unset.(orderBy := OrderByAge)

  /** "order by age": the 66-year-old comes first and the 55-year-old second. */
  lemma OrderByAgeOldestFirst()
    ensures var r := Answer(ByAge);
            |r.users| == 13 && r.users[0].age == 66 && r.users[1].age == 55
  {
    var key := MongoRepo.StoredKey(OrderByAge);
    forall i | 0 <= i < |Seed|
      ensures i != 12 ==> !Le(key(Seed[12]), key(Seed[i]))
      ensures i != 12 && i != 7 ==> !Le(key(Seed[7]), key(Seed[i]))
    {
      StoredKeys(Seed[i]);
      StoredKeys(Seed[12]);
      StoredKeys(Seed[7]);
      if i < 7 {
        assert Seed[..7][i] == Seed[i];
      }
    }
    SeedTopTwo(key, 12, 7);
    DefaultWindowPage(ByAge);
    WholePage(SortDesc(Seed, key), 0, 30);
  }

  const ByName: Filters := Unset.(orderBy := OrderByName)

  /** "order by name": names sort descending by code point, so "third" comes first and "six" second. */
  lemma OrderByNameThirdFirst()
    ensures var r := Answer(ByName);
            |r.users| == 13 && r.users[0].name == "third" && r.users[1].name == "six"
  {
    var key := MongoRepo.StoredKey(OrderByName);
    forall i | 0 <= i < |Seed|
      ensures i != 9 ==> !Le(key(Seed[9]), key(Seed[i]))
      ensures i != 9 && i != 12 ==> !Le(key(Seed[12]), key(Seed[i]))
    {
      StoredKeys(Seed[i]);
      StoredKeys(Seed[9]);
      StoredKeys(Seed[12]);
      if i < 7 {
        assert Seed[..7][i] == Seed[i];
      }
    }
    SeedTopTwo(key, 9, 12);
    DefaultWindowPage(ByName);
    WholePage(SortDesc(Seed, key), 0, 30);
  }
}

=== FILE: values.dfy ===
/**
 Stored field values and the order both stores sort them by. Values of
 different kinds compare by kind first, in the document store's type order
 (null, then numbers, then strings, then dates); values of one kind compare
 naturally, strings by code point, lexicographically.
 */
module Values {
  import opened Interfaces

  datatype Value = Null | Int(i: int) | Str(s: string) | Time(t: Timestamp)

  function Rank(v: Value): nat {
    match v
    case Null => 0
    case Int(_) => 1
    case Str(_) => 2
    case Time(_) => 3
  }

  /** Lexicographic order on strings: `a` is a prefix of `b` or is smaller at the first difference. */
  predicate StrLe(a: string, b: string)
    decreases |a|
  {
    |a| == 0 || (|b| > 0 && (a[0] < b[0] || (a[0] == b[0] && StrLe(a[1..], b[1..]))))
  }

  /** The total preorder stored values are sorted by. */
  predicate Le(a: Value, b: Value) {
    if Rank(a) != Rank(b) then Rank(a) < Rank(b)
    else match (a, b)
      case (Int(x), Int(y)) => x <= y
      case (Str(x), Str(y)) => StrLe(x, y)
      case (Time(x), Time(y)) => x <= y
      case _ => true
  }

  lemma {:induction false} StrLeTotal(a: string, b: string)
    ensures StrLe(a, b) || StrLe(b, a)
    decreases |a|
  {
    if |a| > 0 && |b| > 0 && a[0] == b[0] {
      StrLeTotal(a[1..], b[1..]);
    }
  }

  lemma {:induction false} StrLeTrans(a: string, b: string, c: string)
    requires StrLe(a, b) && StrLe(b, c)
    ensures StrLe(a, c)
    decreases |a|
  {
    if |a| > 0 && a[0] == b[0] && b[0] == c[0] {
      StrLeTrans(a[1..], b[1..], c[1..]);
    }
  }

  lemma {:induction false} StrLeRefl(a: string)
    ensures StrLe(a, a)
    decreases |a|
  {
    if |a| > 0 {
      StrLeRefl(a[1..]);
    }
  }

  /** Every value is at most itself. */
  lemma LeRefl(v: Value)
    ensures Le(v, v)
  {
    if v.Str? {
      StrLeRefl(v.s);
    }
  }

  lemma LeTotal(a: Value, b: Value)
    ensures Le(a, b) || Le(b, a)
  {
    if a.Str? && b.Str? {
      StrLeTotal(a.s, b.s);
    }
  }

  lemma LeTrans(a: Value, b: Value, c: Value)
    requires Le(a, b) && Le(b, c)
    ensures Le(a, c)
  {
    if a.Str? && b.Str? && c.Str? {
      StrLeTrans(a.s, b.s, c.s);
    }
  }

  /** The comparison operators the two query translators emit. */
  datatype CmpOp = AtMost | AtLeast | Above

  /**
   Whether a stored value satisfies `value op bound`. Only values of the
   bound's own kind can satisfy a comparison; in particular a missing field
   (`Null`) never does.
   */
  predicate Satisfies(v: Value, op: CmpOp, bound: Value) {
    Rank(v) == Rank(bound) && !v.Null? &&
    match op
    case AtMost => Le(v, bound)
    case AtLeast => Le(bound, v)
    case Above => !Le(v, bound)
  }
}

=== FILE: wrappers.dfy ===
/** Failure-carrying datatypes shared by the repository model. */
module Wrappers {

  /** An optional value; `None` stands for Go's `nil`. */
  datatype Option<+T> = None | Some(value: T)

  /** A value or the error that prevented computing it. */
  datatype Result<+T, +E> = Ok(value: T) | Err(error: E)
}
